=== FILE: README.md ===
# A verified model of the EJSIGNER IPA re-signing routine

EJSIGNER is a React Native app that re-signs an iOS archive (`.ipa`) with a
certificate and provisioning profile the user picks. Its core is the
`signIPA` routine of `App.js`. The routine:

- makes a temporary workspace and unzips the archive into it;
- finds the `.app` bundle under `Payload`;
- installs the profile as `embedded.mobileprovision`;
- reads the bundle identifier out of that profile with a regular expression;
- signs the bundle through the native module `IPASignerModule.signApp`, or
  copies the certificate into `_CodeSignature` when there is no such module;
- zips `Payload` into `signed_<time>.ipa`, removes the workspace and shows a
  success alert.

Any exception skips the rest, logs `ERROR: <message>` and shows a
"Signing Failed" alert. A `finally` block clears the busy flag and the
progress text.

The model has six modules:

- `Text` holds the character classes of ECMAScript regular expressions,
  substring search, and the decimal rendering of `Date.now()`.
- `Uri` models `uri.replace('file://', '')`. With a string pattern this
  removes only the leftmost occurrence, wherever it stands.
- `Bundle` models the `.app` search `payloadContents.find(item =>
  item.name.endsWith('.app'))`.
- `Provisioning` models the bundle-identifier pattern
  `application-identifier<\/key>\s*<string>([^.]+\.)(.+)<\/string>` and its
  `'com.signer.app'` default.
  - The predicate `MatchesAt` states which spans the pattern matches.
  - `IsFirstMatch` adds the choice a backtracking matcher makes: leftmost
    start, then greedy quantifiers.
  - `ExtractBundleId` is a left-to-right scanner proved to return group 2 of that
    match.
  - Only `(.+)` has a real choice: it extends to the last `</string>` on its
    line. `\s*` and `[^.]+` are forced by the characters after them.
- `Signer` models `signIPA` as a deterministic step machine.
  - Each filesystem or native call is a `Call` value.
  - A `World` answers each call or rejects it with the exception's message,
    and supplies the directory listing, the file contents, the native result,
    whether the native module exists, and the two `Date.now()` values.
  - The routine's output is a trace of `Event`s: flag and progress updates,
    log lines, issued calls, and alerts.
  - `Apply` folds the trace into the component state: `signing`, `progress`
    and `logs`.
- `Pipeline` states what a whole run guarantees:
  - the guard;
  - the step order;
  - the abort on the first exception;
  - cleanup only on success;
  - the `finally` reset;
  - the two signing branches;
  - that no JavaScript call writes `Info.plist` between extraction and
    cleanup (what the native `signApp` writes is not modelled);
  - that the fallback ends with the same alert as real signing.

The model follows the code as written:

- The first `.app` entry wins. Several bundles are not an error.
- No JavaScript statement of `signIPA` rewrites `Info.plist`. The "Update
  Info.plist" step only sets a progress text and logs a line. What the
  native `signApp` writes is not modelled.
- The workspace is removed only when every earlier step succeeded. A failed
  run leaves it behind.
- The certificate-copy fallback ends with the same success alert as a real
  signature.

## Model

| member | source | states |
|---|---|---|
| Text.IsLineTerminator | App.js:132 | ECMAScript's LineTerminator: line feed, carriage return, U+2028 and U+2029, the characters `.` does not match |
| Text.IsWhitespace | App.js:132 | the characters `\s` matches: ECMAScript's WhiteSpace (tab, vertical tab, form feed, space, no-break space, U+FEFF and the Zs category) and its LineTerminator |
| Text.DecimalString | App.js:94 | the rendering of a timestamp is a non-empty run of decimal digits, one digit exactly for values below ten |
| Text.DecimalRoundTrip | App.js:94 | reading the rendered timestamp back gives the timestamp: rendering loses nothing, so distinct times name distinct workspaces |
| Text.FindFrom | App.js:101 | the search returns the leftmost occurrence at or after the start, or reports that there is none |
| Uri.StripFileScheme | App.js:101 | with no `file://` in the URI the path is the URI; otherwise the leftmost occurrence is cut out and everything else kept |
| Uri.StripThenRestore | App.js:101 | putting `file://` back where it was removed restores the URI exactly, and the path is seven characters shorter |
| Uri.StripLeadingScheme | App.js:121 | a `file://` URI becomes the absolute path that follows the scheme |
| Uri.StripIsNotPrefixOnly | App.js:151 | the scheme is removed where it first occurs even in mid-string: `content://a/file://b` becomes `content://a/b` |
| Uri.StripRemovesOne | App.js:162 | only one occurrence is removed: `file://file://x` becomes `file://x` |
| Bundle.FirstAppFrom | App.js:108 | the index found holds a `.app` entry and none before it does, or no entry from the start on is a `.app` |
| Bundle.LocateAppBundle | App.js:107-112 | a bundle is found exactly when some entry's name ends in `.app`, and it is the first such entry; otherwise the error is `No .app directory found in IPA` |
| Bundle.FirstAppWins | App.js:108 | whatever follows it, the first `.app` entry after non-bundle entries is the one used |
| Bundle.TwoBundlesUseFirst | App.js:108 | a listing with two bundles is not rejected: the first is used |
| Provisioning.MatchesAt | App.js:132 | which spans the pattern matches: the key, a whitespace run, `<string>`, a non-empty run without dots ending in a dot, a non-empty run without line terminators, and `</string>` |
| Provisioning.IsFirstMatch | App.js:132 | the match `String.prototype.match` reports: the leftmost start, and at that start the greedy choice for each quantifier |
| Provisioning.MatchIsPinned | App.js:132 | in every match, `\s*` runs to the next non-space, `[^.]+` runs to the first dot after `<string>`, and `</string>` ends on the line where group 2 starts |
| Provisioning.MatchAt | App.js:132 | at a given key position the scan returns a match of the pattern that is the greediest there, or there is no match at that position at all |
| Provisioning.FirstMatchFrom | App.js:132 | the scan returns a match at or after the start such that no match starts earlier and, at the same start, none reaches further; or there is no match at or after the start |
| Provisioning.ExtractBundleId | App.js:131-133 | with no match the result is `com.signer.app`; otherwise it is group 2 of the match JavaScript reports; in either case it is the default or a non-empty single-line string |
| Provisioning.FoundIsFirstMatch | App.js:132-133 | the scanner's match is a match of the pattern, and every match JavaScript could report has the same group 2 |
| Provisioning.CaptureOnOneLine | App.js:132 | group 2 is non-empty and holds no line terminator |
| Provisioning.FirstMatchExists | App.js:132 | whenever the pattern matches anywhere, a reported match exists |
| Provisioning.FirstMatchUnique | App.js:132 | the reported match is unique |
| Provisioning.EndOfLineMatchIsFirst | App.js:132 | a leftmost match whose `</string>` ends its line is the reported one |
| Provisioning.ExtractFromEntry | App.js:131-133 | for a profile holding `application-identifier</key>`, whitespace, `<string>TEAM.rest</string>` and then a line end, and no earlier key, the identifier is `rest` |
| Provisioning.NoKeyGivesDefault | App.js:133 | a profile without the key gives `com.signer.app` |
| Provisioning.ExampleProfile | App.js:131-133 | a concrete profile with a tab-indented `TEAM123.com.example.myapp` entry gives `com.example.myapp` |
| Signer.Ready | App.js:80 | the guard condition: all three files have been picked |
| Signer.Perform | App.js:89-185 | one step of the try block: its progress and log lines, its call, then either a throw with the step's failure message or the lines after the call |
| Signer.RunPlan | App.js:89-196 | the try block: the steps of the plan in order up to and including the first that throws, and the message of that throw, if any |
| Signer.Apply | App.js:24-30 | the component state the trace leaves: `setSigning` sets the flag, `setProgress` the progress text, and `addLog` appends a line |
| Signer.Plan | App.js:95-183 | the try block's calls in source order: the two directories, the unzip, the listing, the profile copy and read, then `signApp` or the signature directory and certificate copy, then the zip and the removal |
| Signer.CallOf | App.js:94-183 | each step's call and its arguments, with the paths built as the template literals build them and `file://` stripped from the picked URIs |
| Signer.Failure | App.js:95-183 | a step throws with its call's rejection message, and the listing step also throws `No .app directory found in IPA` when no entry is a bundle (App.js:110-112) |
| Signer.Lead | App.js:91-180 | the progress texts and log lines before each step's call, in source order |
| Signer.Follow | App.js:102-185 | the log lines after each step's call up to the next one, and the success alert after the removal |
| Signer.Handler | App.js:197-199 | the catch block: the `ERROR: ` line and the "Signing Failed" alert with the thrown message |
| Signer.SignIpa | App.js:79-204 | the whole routine: the missing-files alert alone when a file is missing; otherwise the opening effects, the try block up to its first throw, the catch block and the finally block |
| Signer.LeadIsChatter | App.js:91-180 | the progress texts and log lines before each call are never `ERROR: ` lines, calls or alerts |
| Signer.FollowIsChatter | App.js:102-175 | the log lines after each call up to the next one are never `ERROR: ` lines, calls or alerts |
| Signer.ProfileFollowIsChatter | App.js:134-142 | the `Bundle ID:` line and the Info.plist lines are not error lines, whatever identifier was read |
| Signer.PerformShape | App.js:89-185 | one step records itself and issues exactly its own call; it throws exactly when that call is rejected, or when the listing holds no bundle, and carries that message; only a successful workspace removal shows the success alert |
| Signer.RunReaches | App.js:89-197 | the try block runs the outcomes in order up to the first that throws; it completes exactly when none throws, and otherwise its message is that outcome's |
| Signer.RunPlanSteps | App.js:89-183 | a run performs a non-empty prefix of the plan, issuing each step's call in order, and the try block logs no error line itself |
| Signer.RunPlanCompletes | App.js:89-195 | the try block completes exactly when every step of the plan resolves, and then it has performed the whole plan |
| Signer.RunPlanStops | App.js:89-197 | when the try block throws, it stopped at a step whose failure is the thrown message, after every earlier step resolved |
| Signer.RunPlanAlerts | App.js:183-195 | the try block shows the success alert once if it completes a plan ending with the workspace removal, and no alert otherwise |
| Pipeline.HandlerShape | App.js:197-199 | the catch block adds exactly one `ERROR: <message>` line and one "Signing Failed" alert with that message, and nothing when nothing was thrown |
| Pipeline.TraceShape | App.js:85-203 | a guarded run's steps, calls, error lines and alerts are those of its try block plus those of its catch block |
| Pipeline.Guard | App.js:80-83 | a run issues no call exactly when a file is missing; then it shows only the missing-files alert and leaves the component state unchanged |
| Pipeline.FinallyResets | App.js:200-203 | every guarded run ends by clearing `signing` and the progress text, whatever the try block did |
| Pipeline.PlanEndsWithCleanup | App.js:95-183 | in either branch the workspace removal is the last step of the plan and occurs nowhere else |
| Pipeline.StepOrder | App.js:89-183 | a guarded run performs a non-empty prefix of the plan, in order, each step issuing its own call, and every step but the last resolved |
| Pipeline.Reaches | App.js:89-183 | a step is performed and its call issued once every step before it resolved |
| Pipeline.AbortOnFirstThrow | App.js:89-199 | with every step resolving, the run performs the whole plan and shows only the success alert; otherwise it stops at the failing step and logs one `ERROR: ` line and shows one alert, both with that step's message; every guarded run shows exactly one alert |
| Pipeline.UnlinkEndsThePlan | App.js:183 | a removal call is only ever the last step of a fully performed plan, and removes the workspace |
| Pipeline.CleanupOnlyOnSuccess | App.js:182-183 | the workspace is removed exactly when every step before the removal resolved; any earlier failure leaves it in place |
| Pipeline.MissingBundleAborts | App.js:107-112 | a listing without an `.app` entry stops the run at the listing step: nothing after it runs, the workspace stays, and the error line and alert carry the missing-bundle message |
| Pipeline.SignAppCall | App.js:148-154 | a `signApp` call is the seventh step; it passes the found bundle's path, the certificate path without `file://`, the password and the identifier read from the installed profile |
| Pipeline.NativeSignCall | App.js:149-154 | once the listing resolved, the native call's arguments are the found bundle and the identifier extracted from its embedded profile |
| Pipeline.NativeSignsOnce | App.js:148-155 | with the native module, every `signApp` call has those arguments; there is at most one such call, and there is one once the six steps before it resolved |
| Pipeline.NativeSkipsFallback | App.js:148-165 | with the native module, neither the signature-directory step nor the certificate copy runs |
| Pipeline.FallbackNeverSignsNatively | App.js:156-165 | without the native module no `signApp` call is issued and no native signing step runs |
| Pipeline.FallbackInjectsCertificate | App.js:157-164 | without the native module, once the six steps before signing resolved, `_CodeSignature` is created inside the found bundle; once that resolved, the certificate without `file://` is copied to `_CodeSignature/cert.p12` |
| Bundle.ListsChildren | App.js:107-114 | the form of a `readDir` listing: each entry's path is the listed directory, a slash and the entry's name |
| Pipeline.Affects | App.js:95-183 | which paths each call may create, overwrite or remove: a created directory or written file, with its parent directories; everything beneath the `unzip` target; everything beneath the `unlink` path |
| Pipeline.InfoPlistPlacement | App.js:94-174 | for a bundle listed in `Payload`, `Info.plist` lies beneath the extraction and temporary directories, and is neither at nor beneath the profile, the signature directory, the copied certificate or the signed archive |
| Pipeline.StepAffectsInfoPlist | App.js:95-183 | a step's call may create, overwrite or remove the bundle's `Info.plist` exactly when the step is the unzip or the workspace removal |
| Pipeline.InfoPlistUntouched | App.js:101-183 | the only calls of a run that may create, overwrite or remove the found bundle's `Info.plist` are the unzip, as the third call, and the workspace removal, as the last call of the whole plan; both of them do reach it |
| Pipeline.FallbackLooksSigned | App.js:148-195 | when no call fails and a bundle is found, runs with and without the native module show the same single success alert naming the same archive and log no error |

## Left out

- The file system and the native module are not modelled. Their answers are
  the `World`'s `rejects`, `listing`, `contents` and `signResult`. What
  `unzip`, `copyFile` and `zip` write is not modelled. Only the paths each
  of them, `mkdir` and `unlink` may create, overwrite or remove are
  modelled (`Pipeline.Affects`). What `signApp` writes is not modelled at
  all.
  In particular, the `contents` read back are not tied to the profile that
  `copyFile` installed.
- `Date.now()` (App.js:94, 171) is a pair of parameters, `tempStamp` and
  `signedStamp`. `RNFS.DocumentDirectoryPath` is a parameter too.
- Pipeline.Affects: `signApp` is given no affected path. It runs native
  code inside the bundle, handed the new bundle identifier (App.js:149-154),
  and what it writes is not modelled. It may well rewrite `Info.plist`.
- Pipeline.StepAffectsInfoPlist: the native signing step is cleared only
  because `Pipeline.Affects` gives `signApp` no path, for the reason above.
- Pipeline.InfoPlistUntouched: what `signApp` writes inside the bundle is
  native code and not modelled, so the lemma does not rule out the native
  module rewriting `Info.plist`. The lemma also takes the `Payload` listing
  in the form `readDir` reports it (`Bundle.ListsChildren`). Without that
  form the bundle's path could be any string.
- The time prefix `addLog` adds with `toLocaleTimeString` (App.js:29) is
  dropped: a log entry is its message.
- The routine is `async`. The model runs its awaits in order and does not
  model the interleaving of React state updates with other handlers.
- `error.message` is taken to be a string. Throws of non-`Error` values,
  whose `message` would be `undefined`, are not modelled.
- `installIPA` (App.js:206-222) and the "Install Now" alert button
  (App.js:192) are not modelled. They are a separate routine that runs only
  on a user's tap.
- `pickFile` (App.js:32-77), `clearAll` (App.js:224) and the rendering are
  not modelled. This covers the file-size display with `toFixed`, the
  button states and the styles. They are presentation around the routine.
  Their effect on `signIPA` is its `Request`.
- A `Success!` alert that itself throws is not modelled. The alert is the
  last statement of the try block.
- JavaScript strings are UTF-16. The model's strings are sequences of
  Unicode scalar values. The pattern uses no construct whose meaning depends
  on surrogate pairs, but lengths of non-BMP text differ.
- `Signer.AppDir` returns an empty entry when no bundle was found. No step
  that uses it runs in that case, so the entry is never consulted.
- The progress texts and log lines of each step are part of the trace (`Signer.Lead`, `Signer.Follow`). No
  lemma spells out the complete log of a run line by line. The lemmas state what those lines are not:
  error lines, calls or alerts. The error line and the alerts are stated exactly.

=== FILE: bundle.dfy ===
/** Finding the application bundle in the extracted archive's `Payload`
    directory: App.js takes the first listing entry whose name ends in `.app`
    (`payloadContents.find(...)`) and throws when there is none. Later
    matching entries are ignored; there is no ambiguity error. */
module Bundle {
  import opened Text

  /** One entry of `RNFS.readDir`: its file name and its full path. */
  datatype DirEntry = DirEntry(name: string, path: string)

  /** `RNFS.readDir(dir)` reports each entry's path as `dir`, a slash and
      the entry's name. */
  predicate ListsChildren(entries: seq<DirEntry>, dir: string) {
    forall i :: 0 <= i < |entries| ==> entries[i].path == dir + "/" + entries[i].name
  }

  const AppSuffix := ".app"
  const NoAppMessage := "No .app directory found in IPA"

  predicate IsAppBundle(e: DirEntry) {
    EndsWith(e.name, AppSuffix)
  }

  /** The index of the first `.app` entry at or after `from`. */
  function FirstAppFrom(entries: seq<DirEntry>, from: nat): (r: Option<nat>)
    requires from <= |entries|
    ensures r.Some? ==> from <= r.value < |entries| && IsAppBundle(entries[r.value])
    ensures r.Some? ==> forall j :: from <= j < r.value ==> !IsAppBundle(entries[j])
    ensures r.None? ==> forall j :: from <= j < |entries| ==> !IsAppBundle(entries[j])
    decreases |entries| - from
  {
    if from == |entries| then None
    else if IsAppBundle(entries[from]) then Some(from)
    else FirstAppFrom(entries, from + 1)
  }

  function LocateAppBundle(entries: seq<DirEntry>): (r: Result<DirEntry>)
    ensures r.Ok? <==> exists j :: 0 <= j < |entries| && IsAppBundle(entries[j])
    ensures r.Err? ==> r.message == NoAppMessage
    ensures r.Ok? ==> exists j :: 0 <= j < |entries| && entries[j] == r.value && IsAppBundle(r.value)
                        && forall i :: 0 <= i < j ==> !IsAppBundle(entries[i])
  {
    match FirstAppFrom(entries, 0)
    case None => Err(NoAppMessage)
    case Some(j) => Ok(entries[j])
  }

  /** The first `.app` entry wins whatever follows it. */
  lemma {:induction false} FirstAppWins(before: seq<DirEntry>, app: DirEntry, after: seq<DirEntry>)
    requires forall i :: 0 <= i < |before| ==> !IsAppBundle(before[i])
    requires IsAppBundle(app)
    ensures LocateAppBundle(before + [app] + after) == Ok(app)
  {
    var entries := before + [app] + after;
    assert entries[|before|] == app;
    assert forall i :: 0 <= i < |before| ==> entries[i] == before[i];
    var r := FirstAppFrom(entries, 0);
    assert r == Some(|before|);
  }

  /** Two bundles in `Payload` are not an error: the earlier one is used. */
  lemma TwoBundlesUseFirst(a: DirEntry, b: DirEntry)
    requires IsAppBundle(a) && IsAppBundle(b)
    ensures LocateAppBundle([a, b]) == Ok(a)
  {
    FirstAppWins([], a, [b]);
  }
}

=== FILE: pipeline.dfy ===
/** What `signIPA` (App.js:79-203) guarantees over a whole run, stated on
    the trace `Signer.SignIpa` produces: the input guard, the step order,
    the abort on the first exception, the cleanup that happens only on
    success, the `finally` reset, the two signing branches and the
    Info.plist that no JavaScript call writes between extraction and
    cleanup (what the native `signApp` writes is not modelled). */
module Pipeline {
  import opened Text
  import Uri
  import opened Bundle
  import opened Signer

  // Observers of the fixed pieces around the try block.

  lemma HandlerShape(thrown: Option<string>)
    ensures Steps(Handler(thrown)) == [] && Calls(Handler(thrown)) == []
    ensures thrown.None? ==> ErrorLogs(Handler(thrown)) == [] && Alerts(Handler(thrown)) == []
    ensures thrown.Some? ==>
              && ErrorLogs(Handler(thrown)) == [ErrorPrefix + thrown.value]
              && Alerts(Handler(thrown)) == [Alert("Signing Failed", thrown.value)]
  {
    if thrown.Some? {
      var line := ErrorPrefix + thrown.value;
      assert line[..|ErrorPrefix|] == ErrorPrefix;
      var h := Handler(thrown);
      assert h == [Log(line), Show(Alert("Signing Failed", thrown.value))];
      assert h[1..] == [Show(Alert("Signing Failed", thrown.value))];
      assert h[1..][1..] == [];
      assert h[1..][0].Show?;
      assert Steps(h[1..]) == [];
      assert Calls(h[1..]) == [];
      assert ErrorLogs(h[1..]) == [];
      assert Alerts(h[1..]) == [Alert("Signing Failed", thrown.value)];
      assert IsErrorLog(h[0]);
    }
  }

  lemma FixedPiecesAreSilent()
    ensures Steps(Opening) == [] && Calls(Opening) == [] && ErrorLogs(Opening) == [] && Alerts(Opening) == []
    ensures Steps(Closing) == [] && Calls(Closing) == [] && ErrorLogs(Closing) == [] && Alerts(Closing) == []
  {
    NotErrorLine("=== SIGNING STARTED ===", "");
    assert Chatter(Opening);
    ChatterIsSilent(Opening);
    assert Chatter(Closing);
    ChatterIsSilent(Closing);
  }

  /** The trace of a run that passed the guard: the try block's steps,
      calls and alerts, plus what the catch block adds. */
  lemma TraceShape(req: Request, w: World)
    requires Ready(req)
    ensures var a := RunPlan(Plan(w.nativeSigner), req, w); var t := SignIpa(req, w);
            && Steps(t) == Steps(a.events)
            && Calls(t) == Calls(a.events)
            && ErrorLogs(t) == ErrorLogs(a.events) + ErrorLogs(Handler(a.thrown))
            && Alerts(t) == Alerts(a.events) + Alerts(Handler(a.thrown))
  {
    var a := RunPlan(Plan(w.nativeSigner), req, w);
    FixedPiecesAreSilent();
    HandlerShape(a.thrown);
    ObserversAppend(Opening, a.events);
    ObserversAppend(Opening + a.events, Handler(a.thrown));
    ObserversAppend(Opening + a.events + Handler(a.thrown), Closing);
  }

  // The component state.

  lemma {:induction false} ApplyAppend(ui: Ui, a: seq<Event>, b: seq<Event>)
    ensures Apply(ui, a + b) == Apply(Apply(ui, a), b)
    decreases |a|
  {
    if a == [] {
      assert a + b == b;
    } else {
      assert (a + b)[0] == a[0];
      assert (a + b)[1..] == a[1..] + b;
      var next := match a[0]
        case SetSigning(on) => ui.(signing := on)
        case SetProgress(text) => ui.(progress := text)
        case Log(m) => ui.(logs := ui.logs + [m])
        case _ => ui;
      ApplyAppend(next, a[1..], b);
    }
  }

  /** The input guard (App.js:80-83): with a file missing, `signIPA` shows
      one alert and does nothing else, leaving the component state as it
      was; with all three files it always issues at least its first call. */
  lemma Guard(req: Request, w: World, ui: Ui)
    ensures Calls(SignIpa(req, w)) == [] <==> !Ready(req)
    ensures !Ready(req) ==> Apply(ui, SignIpa(req, w)) == ui
    ensures !Ready(req) ==> Alerts(SignIpa(req, w)) == [MissingFilesAlert]
  {
    if Ready(req) {
      TraceShape(req, w);
      RunPlanSteps(Plan(w.nativeSigner), req, w);
    } else {
      var t := SignIpa(req, w);
      assert t[1..] == [];
    }
  }

  /** The `finally` block (App.js:200-203): every run that passed the guard
      ends by clearing the `signing` flag and the progress text, whatever
      the try block did. */
  lemma FinallyResets(req: Request, w: World, ui: Ui)
    requires Ready(req)
    ensures var t := SignIpa(req, w);
            t[|t| - 2..] == Closing && !Apply(ui, t).signing && Apply(ui, t).progress == ""
  {
    var a := RunPlan(Plan(w.nativeSigner), req, w);
    var head := Opening + a.events + Handler(a.thrown);
    ApplyAppend(ui, head, Closing);
    var u := Apply(ui, head);
    assert Closing[1..][1..] == [];
    assert Apply(u, Closing) == Apply(u.(signing := false), Closing[1..]);
  }

  // The try block of a guarded run.

  lemma PlanEndsWithCleanup(native: bool)
    ensures var plan := Plan(native);
            && plan[|plan| - 1] == RemoveTempDir
            && forall i :: 0 <= i < |plan| - 1 ==> plan[i] != RemoveTempDir
  {
  }

  /** What a guarded run's steps `st` and calls `cs` look like: a non-empty
      prefix of the plan, each step issuing its own call, every step but the
      last resolved, and either the whole plan performed or the last step
      failed. The lemmas below reason from this shape alone. */
  predicate Performs(st: seq<Step>, cs: seq<Call>, req: Request, w: World)
    requires Ready(req)
  {
    && st <= Plan(w.nativeSigner)
    && 0 < |st|
    && cs == CallsOf(st, req, w)
    && Resolved(st[..|st| - 1], req, w)
    && (st == Plan(w.nativeSigner) || Failure(st[|st| - 1], req, w).Some?)
  }

  lemma RunPerforms(req: Request, w: World)
    requires Ready(req)
    ensures Performs(Steps(SignIpa(req, w)), Calls(SignIpa(req, w)), req, w)
  {
    var plan := Plan(w.nativeSigner);
    var st := Steps(SignIpa(req, w));
    TraceShape(req, w);
    RunPlanSteps(plan, req, w);
    RunPlanCompletes(plan, req, w);
    RunPlanStops(plan, req, w);
    if RunPlan(plan, req, w).thrown.None? {
      assert st[..|st| - 1] == plan[..|plan| - 1];
    }
  }

  /** The steps a guarded run performs are a prefix of the plan, at least
      the first, each issuing its own call in order, and every one but the
      last resolved (App.js:89-199). */
  lemma StepOrder(req: Request, w: World)
    requires Ready(req)
    ensures var t := SignIpa(req, w);
            && Steps(t) <= Plan(w.nativeSigner)
            && Steps(t) != []
            && Calls(t) == CallsOf(Steps(t), req, w)
            && Resolved(Steps(t)[..|Steps(t)| - 1], req, w)
  {
    RunPerforms(req, w);
  }

  /** The call at position `i` is the plan's step `i`. */
  lemma CallAt(st: seq<Step>, cs: seq<Call>, req: Request, w: World, i: nat)
    requires Ready(req) && Performs(st, cs, req, w) && i < |cs|
    ensures i < |st| <= |Plan(w.nativeSigner)| && st[i] == Plan(w.nativeSigner)[i]
    ensures cs[i] == CallOf(Plan(w.nativeSigner)[i], req, w)
  {
  }

  /** Every step before an issued call resolved. */
  lemma BeforeCallResolved(st: seq<Step>, cs: seq<Call>, req: Request, w: World, i: nat, j: nat)
    requires Ready(req) && Performs(st, cs, req, w) && j < i < |cs|
    ensures j < |Plan(w.nativeSigner)| && Failure(Plan(w.nativeSigner)[j], req, w).None?
  {
    CallAt(st, cs, req, w, i);
    assert st[..|st| - 1][j] == st[j];
  }

  /** A performed prefix whose last step failed is longer than any
      resolved prefix. */
  lemma FailedStepIsPastResolved(st: seq<Step>, plan: seq<Step>, k: nat, req: Request, w: World)
    requires Ready(req)
    requires st <= plan && 0 < |st| && Failure(st[|st| - 1], req, w).Some?
    requires k <= |plan| && Resolved(plan[..k], req, w)
    ensures k < |st|
  {
  }

  /** Step `k` is performed, and its call issued, once every step before it
      resolved. */
  lemma Reaches(st: seq<Step>, cs: seq<Call>, req: Request, w: World, k: nat)
    requires Ready(req) && Performs(st, cs, req, w)
    requires k < |Plan(w.nativeSigner)| && Resolved(Plan(w.nativeSigner)[..k], req, w)
    ensures k < |st| && st[k] == Plan(w.nativeSigner)[k]
    ensures CallOf(Plan(w.nativeSigner)[k], req, w) in cs
  {
    if st != Plan(w.nativeSigner) {
      FailedStepIsPastResolved(st, Plan(w.nativeSigner), k, req, w);
    }
    assert cs[k] == CallOf(st[k], req, w);
  }

  /** Abort on the first exception (App.js:89-199): a guarded run that meets
      no failing step performs the whole plan, logs no error line and shows
      only the success alert; otherwise it stops at the step that threw,
      after every earlier one resolved, and logs exactly one `ERROR: ` line
      and shows exactly one alert, both carrying that step's message. */
  lemma AbortOnFirstThrow(req: Request, w: World)
    requires Ready(req)
    ensures var t := SignIpa(req, w); var plan := Plan(w.nativeSigner);
            Resolved(plan, req, w) ==>
              Steps(t) == plan && ErrorLogs(t) == [] && Alerts(t) == [SuccessAlert(w)]
    ensures var t := SignIpa(req, w); var st := Steps(t); var plan := Plan(w.nativeSigner);
            !Resolved(plan, req, w) ==>
              && 0 < |st| && Resolved(st[..|st| - 1], req, w)
              && Failure(st[|st| - 1], req, w).Some?
              && ErrorLogs(t) == [ErrorPrefix + Failure(st[|st| - 1], req, w).value]
              && Alerts(t) == [Alert("Signing Failed", Failure(st[|st| - 1], req, w).value)]
    ensures |Alerts(SignIpa(req, w))| == 1
  {
    var plan := Plan(w.nativeSigner);
    var a := RunPlan(plan, req, w);
    TraceShape(req, w);
    RunPlanSteps(plan, req, w);
    RunPlanCompletes(plan, req, w);
    RunPlanStops(plan, req, w);
    PlanEndsWithCleanup(w.nativeSigner);
    RunPlanAlerts(plan, req, w);
    HandlerShape(a.thrown);
  }

  lemma UnlinkIsCleanup(step: Step, req: Request, w: World)
    requires Ready(req)
    ensures CallOf(step, req, w).Unlink? <==> step == RemoveTempDir
  {
  }

  /** A removal call can only be the cleanup step, the last of the plan,
      and removes the temporary directory. */
  lemma UnlinkEndsThePlan(st: seq<Step>, cs: seq<Call>, req: Request, w: World, i: nat)
    requires Ready(req) && Performs(st, cs, req, w)
    requires i < |cs| && cs[i].Unlink?
    ensures st == Plan(w.nativeSigner) && i == |st| - 1
    ensures cs[i] == Unlink(TempDir(w))
  {
    CallAt(st, cs, req, w, i);
    PlanEndsWithCleanup(w.nativeSigner);
    UnlinkIsCleanup(st[i], req, w);
  }

  lemma CleanupIff(st: seq<Step>, cs: seq<Call>, req: Request, w: World)
    requires Ready(req) && Performs(st, cs, req, w)
    ensures var plan := Plan(w.nativeSigner);
            (exists c :: c in cs && c.Unlink?) <==> Resolved(plan[..|plan| - 1], req, w)
    ensures forall c :: c in cs && c.Unlink? ==> c == Unlink(TempDir(w))
  {
    var plan := Plan(w.nativeSigner);
    var last := |plan| - 1;
    forall c | c in cs && c.Unlink?
      ensures c == Unlink(TempDir(w)) && Resolved(plan[..last], req, w)
    {
      var i :| 0 <= i < |cs| && cs[i] == c;
      UnlinkEndsThePlan(st, cs, req, w, i);
    }
    if Resolved(plan[..last], req, w) {
      Reaches(st, cs, req, w, last);
    }
  }

  /** The temporary directory is removed (App.js:183) exactly when every
      step before the removal resolved; on any earlier failure it stays. */
  lemma CleanupOnlyOnSuccess(req: Request, w: World)
    requires Ready(req)
    ensures var cs := Calls(SignIpa(req, w)); var plan := Plan(w.nativeSigner);
            (exists c :: c in cs && c.Unlink?) <==> Resolved(plan[..|plan| - 1], req, w)
    ensures forall c :: c in Calls(SignIpa(req, w)) && c.Unlink? ==> c == Unlink(TempDir(w))
  {
    RunPerforms(req, w);
    CleanupIff(Steps(SignIpa(req, w)), Calls(SignIpa(req, w)), req, w);
  }

  // The signing branch (App.js:148-165).

  /** Once the listing has been read without an error, the bundle was
      found, and the run goes on with it. */
  lemma ResolvedListingFindsBundle(req: Request, w: World)
    requires Ready(req) && Failure(ReadPayload, req, w).None?
    ensures Located(w).Ok? && AppDir(w) == Located(w).value
  {
  }

  /** Once the listing step and the steps before it resolved, the bundle
      was found. */
  lemma BundleFound(req: Request, w: World, k: nat)
    requires Ready(req)
    requires 3 < k <= |Plan(w.nativeSigner)| && Resolved(Plan(w.nativeSigner)[..k], req, w)
    ensures Located(w).Ok? && AppDir(w) == Located(w).value
  {
    assert Plan(w.nativeSigner)[..k][3] == ReadPayload;
    ResolvedListingFindsBundle(req, w);
  }

  lemma SignAppIsNativeSign(step: Step, req: Request, w: World)
    requires Ready(req)
    ensures CallOf(step, req, w).SignApp? <==> step == NativeSign
  {
  }

  /** A `signApp` call is the native signing step, issued after the bundle
      was found, with the bundle's path, the certificate path with
      `file://` removed, the password and the bundle identifier read from
      the installed profile. */
  lemma SignAppCall(st: seq<Step>, cs: seq<Call>, req: Request, w: World, i: nat)
    requires Ready(req) && w.nativeSigner && Performs(st, cs, req, w)
    requires i < |cs| && cs[i].SignApp?
    ensures i == 6
    ensures Located(w).Ok?
    ensures cs[i] ==
              SignApp(Located(w).value.path, Uri.StripFileScheme(req.cert.value.uri), req.password,
                      Provisioning.ExtractBundleId(w.contents(EmbeddedProfilePath(Located(w).value))))
  {
    SignAppIsSeventh(st, cs, req, w, i);
    NativeSignCall(req, w);
  }

  /** A `signApp` call is the plan's seventh step, reached only after the
      listing step resolved. */
  lemma SignAppIsSeventh(st: seq<Step>, cs: seq<Call>, req: Request, w: World, i: nat)
    requires Ready(req) && w.nativeSigner && Performs(st, cs, req, w)
    requires i < |cs| && cs[i].SignApp?
    ensures i == 6 && cs[i] == CallOf(NativeSign, req, w)
    ensures Failure(ReadPayload, req, w).None?
  {
    CallAt(st, cs, req, w, i);
    SignAppIsNativeSign(st[i], req, w);
    NativeSignIsSeventh(i);
    BeforeCallResolved(st, cs, req, w, i, 3);
  }

  lemma NativeSignIsSeventh(i: nat)
    requires i < |Plan(true)| && Plan(true)[i] == NativeSign
    ensures i == 6
  {
  }

  /** Once the listing resolved, the native signing call carries the found
      bundle and the identifier read from its installed profile. */
  lemma NativeSignCall(req: Request, w: World)
    requires Ready(req) && Failure(ReadPayload, req, w).None?
    ensures Located(w).Ok?
    ensures CallOf(NativeSign, req, w) ==
              SignApp(Located(w).value.path, Uri.StripFileScheme(req.cert.value.uri), req.password,
                      Provisioning.ExtractBundleId(w.contents(EmbeddedProfilePath(Located(w).value))))
  {
    ResolvedListingFindsBundle(req, w);
    NativeSignArguments(req, w);
  }

  lemma NativeSignArguments(req: Request, w: World)
    requires Ready(req)
    ensures CallOf(NativeSign, req, w) ==
              SignApp(AppDir(w).path, Uri.StripFileScheme(req.cert.value.uri), req.password,
                      Provisioning.ExtractBundleId(w.contents(EmbeddedProfilePath(AppDir(w)))))
  {
  }

  lemma SignsOnce(st: seq<Step>, cs: seq<Call>, req: Request, w: World)
    requires Ready(req) && w.nativeSigner && Performs(st, cs, req, w)
    ensures forall i, j :: 0 <= i < |cs| && 0 <= j < |cs| && cs[i].SignApp? && cs[j].SignApp? ==> i == j
    ensures Resolved(Plan(true)[..6], req, w) ==> CallOf(NativeSign, req, w) in cs
  {
    forall i, j | 0 <= i < |cs| && 0 <= j < |cs| && cs[i].SignApp? && cs[j].SignApp?
      ensures i == j
    {
      SignAppCall(st, cs, req, w, i);
      SignAppCall(st, cs, req, w, j);
    }
    if Resolved(Plan(true)[..6], req, w) {
      Reaches(st, cs, req, w, 6);
    }
  }

  /** With the native module present (App.js:148-155), every `signApp` call
      of a guarded run is the one `SignAppCall` describes; there is at most
      one; and there is one once the six steps before it resolved. */
  lemma NativeSignsOnce(req: Request, w: World)
    requires Ready(req) && w.nativeSigner
    ensures var cs := Calls(SignIpa(req, w));
            forall i :: 0 <= i < |cs| && cs[i].SignApp? ==>
              && Located(w).Ok?
              && cs[i] == SignApp(Located(w).value.path, Uri.StripFileScheme(req.cert.value.uri), req.password,
                                  Provisioning.ExtractBundleId(w.contents(EmbeddedProfilePath(Located(w).value))))
    ensures var cs := Calls(SignIpa(req, w));
            forall i, j :: 0 <= i < |cs| && 0 <= j < |cs| && cs[i].SignApp? && cs[j].SignApp? ==> i == j
    ensures Resolved(Plan(true)[..6], req, w) ==>
              CallOf(NativeSign, req, w) in Calls(SignIpa(req, w))
  {
    var st := Steps(SignIpa(req, w));
    var cs := Calls(SignIpa(req, w));
    RunPerforms(req, w);
    forall i | 0 <= i < |cs| && cs[i].SignApp?
      ensures Located(w).Ok?
      ensures cs[i] == SignApp(Located(w).value.path, Uri.StripFileScheme(req.cert.value.uri), req.password,
                               Provisioning.ExtractBundleId(w.contents(EmbeddedProfilePath(Located(w).value))))
    {
      SignAppCall(st, cs, req, w, i);
    }
    SignsOnce(st, cs, req, w);
  }

  lemma NativeSteps(st: seq<Step>, cs: seq<Call>, req: Request, w: World)
    requires Ready(req) && w.nativeSigner && Performs(st, cs, req, w)
    ensures MakeSignatureDir !in st && CopyCertificate !in st
  {
    forall i | 0 <= i < |st|
      ensures st[i] != MakeSignatureDir && st[i] != CopyCertificate
    {
      assert st[i] == Plan(true)[i];
    }
  }

  /** With the native module present, neither fallback step runs, so
      nothing is created under `_CodeSignature`. */
  lemma NativeSkipsFallback(req: Request, w: World)
    requires Ready(req) && w.nativeSigner
    ensures var st := Steps(SignIpa(req, w));
            MakeSignatureDir !in st && CopyCertificate !in st
  {
    RunPerforms(req, w);
    NativeSteps(Steps(SignIpa(req, w)), Calls(SignIpa(req, w)), req, w);
  }

  lemma FallbackStepsSkipNative(st: seq<Step>)
    requires st <= Plan(false)
    ensures NativeSign !in st
  {
    assert NativeSign !in Plan(false);
    forall i | 0 <= i < |st|
      ensures st[i] != NativeSign
    {
      assert st[i] == Plan(false)[i] && Plan(false)[i] in Plan(false);
    }
  }

  lemma NeverSignsNatively(st: seq<Step>, cs: seq<Call>, req: Request, w: World)
    requires Ready(req) && !w.nativeSigner && Performs(st, cs, req, w)
    ensures forall c :: c in cs ==> !c.SignApp?
    ensures NativeSign !in st
  {
    FallbackStepsSkipNative(st);
    forall c | c in cs
      ensures !c.SignApp?
    {
      var i :| 0 <= i < |cs| && cs[i] == c;
      SignAppIsNativeSign(st[i], req, w);
    }
  }

  /** Without the native module (App.js:156-164), a guarded run never
      calls `signApp` and performs no native signing step. */
  lemma FallbackNeverSignsNatively(req: Request, w: World)
    requires Ready(req) && !w.nativeSigner
    ensures forall c :: c in Calls(SignIpa(req, w)) ==> !c.SignApp?
    ensures NativeSign !in Steps(SignIpa(req, w))
  {
    RunPerforms(req, w);
    NeverSignsNatively(Steps(SignIpa(req, w)), Calls(SignIpa(req, w)), req, w);
  }

  /** A step after the listing is reached once every step before it
      resolved, and by then the bundle was found. */
  lemma ReachedAfterListing(st: seq<Step>, cs: seq<Call>, req: Request, w: World, k: nat)
    requires Ready(req) && Performs(st, cs, req, w)
    requires 3 < k < |Plan(w.nativeSigner)| && Resolved(Plan(w.nativeSigner)[..k], req, w)
    ensures Located(w).Ok? && AppDir(w) == Located(w).value
    ensures CallOf(Plan(w.nativeSigner)[k], req, w) in cs
  {
    BundleFound(req, w, k);
    Reaches(st, cs, req, w, k);
  }

  lemma InjectsDirectory(st: seq<Step>, cs: seq<Call>, req: Request, w: World)
    requires Ready(req) && !w.nativeSigner && Performs(st, cs, req, w)
    requires Resolved(Plan(false)[..6], req, w)
    ensures Located(w).Ok? && Mkdir(SignatureDir(Located(w).value)) in cs
  {
    ReachedAfterListing(st, cs, req, w, 6);
    assert Plan(false)[6] == MakeSignatureDir;
  }

  lemma InjectsCopy(st: seq<Step>, cs: seq<Call>, req: Request, w: World)
    requires Ready(req) && !w.nativeSigner && Performs(st, cs, req, w)
    requires Resolved(Plan(false)[..7], req, w)
    ensures Located(w).Ok?
    ensures CopyFile(Uri.StripFileScheme(req.cert.value.uri), SignatureDir(Located(w).value) + "/cert.p12") in cs
  {
    ReachedAfterListing(st, cs, req, w, 7);
    assert Plan(false)[7] == CopyCertificate;
  }

  lemma InjectsCertificate(st: seq<Step>, cs: seq<Call>, req: Request, w: World)
    requires Ready(req) && !w.nativeSigner && Performs(st, cs, req, w)
    ensures Resolved(Plan(false)[..6], req, w) ==>
              Located(w).Ok? && Mkdir(SignatureDir(Located(w).value)) in cs
    ensures Resolved(Plan(false)[..7], req, w) ==>
              && Located(w).Ok?
              && CopyFile(Uri.StripFileScheme(req.cert.value.uri), SignatureDir(Located(w).value) + "/cert.p12") in cs
  {
    if Resolved(Plan(false)[..6], req, w) {
      InjectsDirectory(st, cs, req, w);
    }
    if Resolved(Plan(false)[..7], req, w) {
      InjectsCopy(st, cs, req, w);
    }
  }

  /** Without the native module, once the six steps before signing
      resolved the run creates `_CodeSignature` inside the found bundle,
      and once that resolved it copies the certificate, its `file://`
      removed, to `_CodeSignature/cert.p12` (App.js:158-163). */
  lemma FallbackInjectsCertificate(req: Request, w: World)
    requires Ready(req) && !w.nativeSigner
    ensures Resolved(Plan(false)[..6], req, w) ==>
              && Located(w).Ok?
              && Mkdir(SignatureDir(Located(w).value)) in Calls(SignIpa(req, w))
    ensures Resolved(Plan(false)[..7], req, w) ==>
              && Located(w).Ok?
              && CopyFile(Uri.StripFileScheme(req.cert.value.uri), SignatureDir(Located(w).value) + "/cert.p12")
                 in Calls(SignIpa(req, w))
  {
    RunPerforms(req, w);
    InjectsCertificate(Steps(SignIpa(req, w)), Calls(SignIpa(req, w)), req, w);
  }

  // Info.plist (App.js:136-142).

  /** Path `p` is directory `d` itself or lies beneath it. */
  predicate Within(p: string, d: string) {
    p == d || StartsWith(p, d + "/")
  }

  /** Call `c` may create, overwrite or remove what is at path `p`. A call
      that creates a directory or writes a file may make `p` as the target
      itself or as one of its parent directories; `unzip` also writes
      everything beneath its target, and `unlink` removes its path and
      everything beneath it. Reading calls change nothing. `signApp` is
      given no path: what the native module writes inside the bundle is not
      part of this model. */
  predicate Affects(c: Call, p: string) {
    match c
    case Mkdir(d) => Within(d, p)
    case Unzip(_, d) => Within(d, p) || Within(p, d)
    case ReadDir(_) => false
    case CopyFile(_, f) => Within(f, p)
    case ReadFile(_) => false
    case SignApp(_, _, _, _) => false
    case Zip(_, f) => Within(f, p)
    case Unlink(d) => Within(p, d)
  }

  /** Two paths that share a head and then differ at some character are
      not one inside the other. */
  lemma Diverge(head: string, u: string, v: string, k: nat)
    requires k < |u| && k < |v| && u[k] != v[k]
    ensures !Within(head + u, head + v) && !Within(head + v, head + u)
  {
    assert (head + u)[|head| + k] == u[k] && (head + v)[|head| + k] == v[k];
  }

  lemma WithinJoin(d: string, rest: string)
    ensures Within(d + "/" + rest, d)
  {
    assert (d + "/" + rest)[..|d| + 1] == d + "/";
  }

  /** `Info.plist` lies beneath the extraction directory and the temporary
      directory, and neither of them lies beneath it. */
  lemma InfoPlistBeneathScratch(w: World, app: DirEntry)
    requires app.path == PayloadDir(w) + "/" + app.name
    ensures var p := InfoPlistPath(app);
            && Within(p, ExtractDir(w)) && Within(p, TempDir(w))
            && !Within(TempDir(w), p) && !Within(ExtractDir(w), p)
  {
    var rest := "Payload" + "/" + app.name + "/Info.plist";
    assert InfoPlistPath(app) == ExtractDir(w) + "/" + rest;
    WithinJoin(ExtractDir(w), rest);
    assert InfoPlistPath(app) == TempDir(w) + "/" + ("extracted" + "/" + rest);
    WithinJoin(TempDir(w), "extracted" + "/" + rest);
  }

  /** The other files a run writes inside the bundle are beside
      `Info.plist`, not at it or above it. */
  lemma InfoPlistBesideSignature(app: DirEntry)
    ensures var p := InfoPlistPath(app);
            && !Within(EmbeddedProfilePath(app), p)
            && !Within(SignatureDir(app), p) && !Within(SignatureDir(app) + "/cert.p12", p)
  {
    Diverge(app.path, "/embedded.mobileprovision", "/Info.plist", 1);
    Diverge(app.path, "/_CodeSignature", "/Info.plist", 1);
    assert SignatureDir(app) + "/cert.p12" == app.path + ("/_CodeSignature" + "/cert.p12");
    Diverge(app.path, "/_CodeSignature" + "/cert.p12", "/Info.plist", 1);
  }

  /** The signed archive is written beside the temporary directory, so
      not at or above `Info.plist`. */
  lemma InfoPlistApartFromArchive(w: World, app: DirEntry)
    requires app.path == PayloadDir(w) + "/" + app.name
    ensures !Within(SignedIpaPath(w), InfoPlistPath(app))
  {
    var docs := w.documentDirectoryPath;
    var temp := "/temp_" + (DecimalString(w.tempStamp) + ("/extracted" + "/Payload" + "/" + app.name + "/Info.plist"));
    var signed := "/signed_" + (DecimalString(w.signedStamp) + ".ipa");
    assert InfoPlistPath(app) == docs + temp;
    assert SignedIpaPath(w) == docs + signed;
    assert signed[1] == 's' && temp[1] == 't';
    Diverge(docs, signed, temp, 1);
  }

  /** Where `Info.plist` of a bundle listed in `Payload` lies relative to
      every path a run writes or removes. */
  lemma InfoPlistPlacement(w: World, app: DirEntry)
    requires app.path == PayloadDir(w) + "/" + app.name
    ensures var p := InfoPlistPath(app);
            && Within(p, ExtractDir(w)) && Within(p, TempDir(w))
            && !Within(TempDir(w), p) && !Within(ExtractDir(w), p)
            && !Within(EmbeddedProfilePath(app), p)
            && !Within(SignatureDir(app), p) && !Within(SignatureDir(app) + "/cert.p12", p)
            && !Within(SignedIpaPath(w), p)
  {
    InfoPlistBeneathScratch(w, app);
    InfoPlistBesideSignature(app);
    InfoPlistApartFromArchive(w, app);
  }

  /** Among the steps, only the unzip and the final removal may write or
      remove the bundle's `Info.plist`, and both do reach it. The native
      signing step is cleared because `Affects` gives `signApp` no path. */
  lemma StepAffectsInfoPlist(step: Step, req: Request, w: World)
    requires Ready(req) && AppDir(w).path == PayloadDir(w) + "/" + AppDir(w).name
    ensures Affects(CallOf(step, req, w), InfoPlistPath(AppDir(w))) <==> step == UnzipIpa || step == RemoveTempDir
  {
    InfoPlistPlacement(w, AppDir(w));
  }

  lemma PlanUnzipsThird(native: bool)
    ensures var plan := Plan(native);
            plan[2] == UnzipIpa && forall i :: 0 <= i < |plan| && i != 2 ==> plan[i] != UnzipIpa
  {
  }

  lemma ListedBundlePath(w: World)
    requires Located(w).Ok? && ListsChildren(w.listing(PayloadDir(w)), PayloadDir(w))
    ensures AppDir(w) == Located(w).value
    ensures AppDir(w).path == PayloadDir(w) + "/" + AppDir(w).name
  {
  }

  lemma AffectingCalls(st: seq<Step>, cs: seq<Call>, req: Request, w: World)
    requires Ready(req) && Performs(st, cs, req, w)
    requires AppDir(w).path == PayloadDir(w) + "/" + AppDir(w).name
    ensures forall i :: 0 <= i < |cs| && Affects(cs[i], InfoPlistPath(AppDir(w))) ==>
              || (i == 2 && cs[i] == CallOf(UnzipIpa, req, w))
              || (i == |cs| - 1 == |Plan(w.nativeSigner)| - 1 && cs[i] == Unlink(TempDir(w)))
    ensures forall i :: 0 <= i < |cs| && (cs[i].Unzip? || cs[i].Unlink?) ==> Affects(cs[i], InfoPlistPath(AppDir(w)))
  {
    var plan := Plan(w.nativeSigner);
    PlanUnzipsThird(w.nativeSigner);
    PlanEndsWithCleanup(w.nativeSigner);
    forall i | 0 <= i < |cs|
      ensures Affects(cs[i], InfoPlistPath(AppDir(w))) <==> plan[i] == UnzipIpa || plan[i] == RemoveTempDir
      ensures plan[i] == RemoveTempDir ==> st == plan && i == |cs| - 1 && cs[i] == Unlink(TempDir(w))
      ensures cs[i].Unzip? ==> plan[i] == UnzipIpa
      ensures cs[i].Unlink? ==> plan[i] == RemoveTempDir
    {
      CallAt(st, cs, req, w, i);
      StepAffectsInfoPlist(plan[i], req, w);
      UnlinkIsCleanup(plan[i], req, w);
      if plan[i] == RemoveTempDir {
        UnlinkEndsThePlan(st, cs, req, w, i);
      }
    }
  }

  /** No JavaScript call of a run writes the bundle's `Info.plist` between
      extracting the archive and removing the temporary directory: the
      "Update Info.plist" step only sets a progress text and logs a line
      (App.js:136-142), and the only calls that may create, overwrite or
      remove the file are the unzip that extracts it (the third call,
      App.js:101) and the final removal of the temporary directory (the
      last call of the whole plan, App.js:183).
      Both of those do reach it. What the native `signApp` writes inside the
      bundle is not modelled: `Affects` gives it no path. The listing is
      taken as `readDir` reports it, each entry's path being `Payload`'s
      path, a slash and its name. */
  lemma InfoPlistUntouched(req: Request, w: World)
    requires Ready(req) && Located(w).Ok?
    requires ListsChildren(w.listing(PayloadDir(w)), PayloadDir(w))
    ensures var cs := Calls(SignIpa(req, w)); var p := InfoPlistPath(Located(w).value);
            forall i :: 0 <= i < |cs| && Affects(cs[i], p) ==>
              || (i == 2 && cs[i] == Unzip(Uri.StripFileScheme(req.ipa.value.uri), ExtractDir(w)))
              || (i == |cs| - 1 == |Plan(w.nativeSigner)| - 1 && cs[i] == Unlink(TempDir(w)))
    ensures var cs := Calls(SignIpa(req, w)); var p := InfoPlistPath(Located(w).value);
            forall i :: 0 <= i < |cs| && (cs[i].Unzip? || cs[i].Unlink?) ==> Affects(cs[i], p)
  {
    ListedBundlePath(w);
    RunPerforms(req, w);
    AffectingCalls(Steps(SignIpa(req, w)), Calls(SignIpa(req, w)), req, w);
  }

  // A listing without an `.app` entry (App.js:108-112).

  lemma StopsAtListing(st: seq<Step>, cs: seq<Call>, req: Request, w: World)
    requires Ready(req) && Performs(st, cs, req, w)
    requires Resolved(Plan(w.nativeSigner)[..3], req, w)
    requires Failure(ReadPayload, req, w).Some?
    ensures st == Plan(w.nativeSigner)[..4]
    ensures !Resolved(Plan(w.nativeSigner), req, w)
    ensures !Resolved(Plan(w.nativeSigner)[..|Plan(w.nativeSigner)| - 1], req, w)
  {
    var plan := Plan(w.nativeSigner);
    Reaches(st, cs, req, w, 3);
    assert plan[3] == ReadPayload && plan[..|plan| - 1][3] == ReadPayload;
    assert st[..|st| - 1] <= st;
    assert |st| == 4;
  }

  /** When the first three steps resolve and the listing reads without an
      error but holds no `.app` entry, the run stops at the listing step:
      nothing after it runs, the temporary directory stays, and the one
      error line and the one alert carry the missing-bundle message. */
  lemma MissingBundleAborts(req: Request, w: World)
    requires Ready(req)
    requires Resolved(Plan(w.nativeSigner)[..3], req, w)
    requires w.rejects(ReadDir(PayloadDir(w))).None? && Located(w).Err?
    ensures var t := SignIpa(req, w);
            && Steps(t) == Plan(w.nativeSigner)[..4]
            && ErrorLogs(t) == [ErrorPrefix + NoAppMessage]
            && Alerts(t) == [Alert("Signing Failed", NoAppMessage)]
            && forall c :: c in Calls(t) ==> !c.Unlink?
  {
    var t := SignIpa(req, w);
    assert Failure(ReadPayload, req, w) == Some(NoAppMessage);
    RunPerforms(req, w);
    StopsAtListing(Steps(t), Calls(t), req, w);
    assert Steps(t)[3] == ReadPayload;
    AbortOnFirstThrow(req, w);
    CleanupIff(Steps(t), Calls(t), req, w);
  }

  // The fallback is reported like a real signing (App.js:156-186).

  lemma FailureIgnoresSigner(step: Step, req: Request, w: World, native: bool)
    requires Ready(req)
    ensures Failure(step, req, w.(nativeSigner := native)) == Failure(step, req, w)
  {
  }

  lemma ResolvedIgnoresSigner(steps: seq<Step>, req: Request, w: World, native: bool)
    requires Ready(req)
    ensures Resolved(steps, req, w.(nativeSigner := native)) <==> Resolved(steps, req, w)
  {
    forall i | 0 <= i < |steps| {
      FailureIgnoresSigner(steps[i], req, w, native);
    }
  }

  /** When every call succeeds and the listing holds an `.app` entry, a run
      with the native module and one without it show the same single
      alert: the success alert naming the same signed IPA. Nothing in the
      alert tells the certificate-copy fallback from a real signing. */
  lemma FallbackLooksSigned(req: Request, w: World)
    requires Ready(req)
    requires forall c :: w.rejects(c).None?
    requires Located(w).Ok?
    ensures Alerts(SignIpa(req, w.(nativeSigner := true))) == [SuccessAlert(w)]
    ensures Alerts(SignIpa(req, w.(nativeSigner := false))) == [SuccessAlert(w)]
    ensures ErrorLogs(SignIpa(req, w.(nativeSigner := true))) == []
    ensures ErrorLogs(SignIpa(req, w.(nativeSigner := false))) == []
  {
    var wn := w.(nativeSigner := true);
    var wf := w.(nativeSigner := false);
    forall native: bool
      ensures Resolved(Plan(native), req, w.(nativeSigner := native))
    {
      var v := w.(nativeSigner := native);
      ResolvedIgnoresSigner(Plan(native), req, w, native);
      forall i | 0 <= i < |Plan(native)|
        ensures Failure(Plan(native)[i], req, w).None?
      {
      }
    }
    AbortOnFirstThrow(req, wn);
    AbortOnFirstThrow(req, wf);
    assert SuccessAlert(wn) == SuccessAlert(w) && SuccessAlert(wf) == SuccessAlert(w);
  }
}

=== FILE: provisioning.dfy ===
/** Deriving the bundle identifier from a provisioning profile's text, as
    App.js does with
      /application-identifier<\/key>\s*<string>([^.]+\.)(.+)<\/string>/
    and `match ? match[2] : 'com.signer.app'`.

    `MatchesAt` states which spans the pattern can match, piece by piece;
    `IsFirstMatch` adds the choice a backtracking JavaScript matcher makes
    among them: the leftmost start, and at that start the greedy quantifiers'
    preference. `ExtractBundleId` is a scanner proved to return that choice's
    second group. */
module Provisioning {
  import opened Text

  const Key := "application-identifier</key>"
  const Open := "<string>"
  const Close := "</string>"
  const DefaultBundleId := "com.signer.app"

  /** Positions of one match: `key` where `application-identifier</key>`
      starts, `open` where `<string>` starts (the `\s*` run lies between),
      `dot` the `.` closing group 1, `close` where `</string>` starts.
      Group 2 is the text strictly between `dot` and `close`. */
  datatype Span = Span(key: nat, open: nat, dot: nat, close: nat)

  ghost predicate MatchesAt(s: string, m: Span) {
    && OccursAt(s, Key, m.key)
    && m.key + |Key| <= m.open
    && OccursAt(s, Open, m.open)
    && (forall k :: m.key + |Key| <= k < m.open ==> IsWhitespace(s[k]))
    // `[^.]+\.`: at least one non-dot character, then the dot
    && m.open + |Open| < m.dot < |s|
    && s[m.dot] == '.'
    && (forall k :: m.open + |Open| <= k < m.dot ==> s[k] != '.')
    // `(.+)<\/string>`: at least one character, none a line terminator
    && m.dot + 1 < m.close
    && OccursAt(s, Close, m.close)
    && (forall k :: m.dot + 1 <= k < m.close ==> !IsLineTerminator(s[k]))
  }

  /** The match a JavaScript `String.prototype.match` reports: no match
      starts further left, and among matches at the same start the greedy
      `\s*`, `[^.]+` and `(.+)` take as much as they can. */
  ghost predicate IsFirstMatch(s: string, m: Span) {
    MatchesAt(s, m) &&
    forall m' :: MatchesAt(s, m') ==>
      m.key < m'.key || (m'.key == m.key && m'.open == m.open && m'.dot == m.dot && m'.close <= m.close)
  }

  /** The end of the `\s*` run starting at `from`. */
  function SkipWhitespace(s: string, from: nat): (k: nat)
    requires from <= |s|
    ensures from <= k <= |s|
    ensures forall j :: from <= j < k ==> IsWhitespace(s[j])
    ensures k < |s| ==> !IsWhitespace(s[k])
    decreases |s| - from
  {
    if from == |s| || !IsWhitespace(s[from]) then from else SkipWhitespace(s, from + 1)
  }

  /** The first index at or after `from` holding `c`. */
  function IndexOfChar(s: string, c: char, from: nat): (r: Option<nat>)
    requires from <= |s|
    ensures r.Some? ==> from <= r.value < |s| && s[r.value] == c
    ensures r.Some? ==> forall j :: from <= j < r.value ==> s[j] != c
    ensures r.None? ==> forall j :: from <= j < |s| ==> s[j] != c
    decreases |s| - from
  {
    if from == |s| then None
    else if s[from] == c then Some(from)
    else IndexOfChar(s, c, from + 1)
  }

  /** The end of the line that contains index `from`. */
  function LineEnd(s: string, from: nat): (k: nat)
    requires from <= |s|
    ensures from <= k <= |s|
    ensures forall j :: from <= j < k ==> !IsLineTerminator(s[j])
    ensures k < |s| ==> IsLineTerminator(s[k])
    decreases |s| - from
  {
    if from == |s| || IsLineTerminator(s[from]) then from else LineEnd(s, from + 1)
  }

  /** The last `</string>` lying wholly within `[lo, hi)`. */
  function LastCloseIn(s: string, lo: nat, hi: nat): (r: Option<nat>)
    requires hi <= |s|
    ensures r.Some? ==> lo <= r.value && r.value + |Close| <= hi && OccursAt(s, Close, r.value)
    ensures r.Some? ==> forall e: nat :: r.value < e && e + |Close| <= hi ==> !OccursAt(s, Close, e)
    ensures r.None? ==> forall e: nat :: lo <= e && e + |Close| <= hi ==> !OccursAt(s, Close, e)
    decreases hi
  {
    if hi < lo + |Close| then None
    else if OccursAt(s, Close, hi - |Close|) then Some(hi - |Close|)
    else LastCloseIn(s, lo, hi - 1)
  }

  lemma CloseHasNoLineTerminator(s: string, e: nat)
    requires OccursAt(s, Close, e)
    ensures forall j :: e <= j < e + |Close| ==> !IsLineTerminator(s[j])
  {
    forall j | e <= j < e + |Close|
      ensures !IsLineTerminator(s[j])
    {
      assert s[j] == s[e..e + |Close|][j - e] == Close[j - e];
    }
  }

  /** Two occurrences of `</string>` never overlap: its `<` appears once. */
  lemma ClosesApart(s: string, a: nat, b: nat)
    requires OccursAt(s, Close, a) && OccursAt(s, Close, b)
    ensures a < b ==> a + |Close| <= b
    ensures s[b] == '<'
  {
    assert s[b] == s[b..b + |Close|][0] == '<';
    assert forall j :: a < j < a + |Close| ==> s[j] == s[a..a + |Close|][j - a] == Close[j - a];
  }

  /** In any match only the end of group 2 is free: the `\s*` run must reach
      the `<` of `<string>`, `[^.]+` must reach the first dot after it, and
      `</string>` must end on the line group 2 starts on. */
  ghost predicate Pinned(s: string, m: Span)
    requires MatchesAt(s, m)
  {
    && m.open == SkipWhitespace(s, m.key + |Key|)
    && IndexOfChar(s, '.', m.open + |Open|) == Some(m.dot)
    && m.close + |Close| <= LineEnd(s, m.dot + 1)
  }

  lemma MatchIsPinned(s: string, m: Span)
    requires MatchesAt(s, m)
    ensures Pinned(s, m)
  {
    assert s[m.open] == s[m.open..m.open + |Open|][0] == '<';
    CloseHasNoLineTerminator(s, m.close);
  }

  lemma AllMatchesPinned(s: string)
    ensures forall m :: MatchesAt(s, m) ==> Pinned(s, m)
  {
    forall m | MatchesAt(s, m)
      ensures Pinned(s, m)
    {
      MatchIsPinned(s, m);
    }
  }

  /** The scan at key position `p`: the key, the whitespace run, `<string>`,
      the first dot after it and the last `</string>` on that line. */
  function ScanAt(s: string, p: nat): Option<Span> {
    if !OccursAt(s, Key, p) then None
    else
      var open := SkipWhitespace(s, p + |Key|);
      if !OccursAt(s, Open, open) then None
      else
        match IndexOfChar(s, '.', open + |Open|)
        case None => None
        case Some(dot) =>
          if dot == open + |Open| then None
          else
            match LastCloseIn(s, dot + 2, LineEnd(s, dot + 1))
            case None => None
            case Some(close) => Some(Span(p, open, dot, close))
  }

  lemma ScanFinds(s: string, p: nat)
    ensures ScanAt(s, p).Some? ==> ScanAt(s, p).value.key == p && MatchesAt(s, ScanAt(s, p).value)
  {
    if ScanAt(s, p).Some? {
      CloseHasNoLineTerminator(s, ScanAt(s, p).value.close);
    }
  }

  lemma ScanIsGreedy(s: string, p: nat)
    ensures ScanAt(s, p).Some? ==> forall m :: MatchesAt(s, m) && m.key == p ==>
              m.open == ScanAt(s, p).value.open && m.dot == ScanAt(s, p).value.dot
              && m.close <= ScanAt(s, p).value.close
  {
    AllMatchesPinned(s);
  }

  lemma ScanMisses(s: string, p: nat)
    ensures ScanAt(s, p).None? ==> forall m: Span :: m.key == p ==> !MatchesAt(s, m)
  {
    AllMatchesPinned(s);
  }

  /** The match at key position `p`, if the pattern matches there. */
  function MatchAt(s: string, p: nat): (r: Option<Span>)
    ensures r.Some? ==> r.value.key == p && MatchesAt(s, r.value)
    ensures r.Some? ==> forall m :: MatchesAt(s, m) && m.key == p ==>
              m.open == r.value.open && m.dot == r.value.dot && m.close <= r.value.close
    ensures r.None? ==> forall m: Span :: m.key == p ==> !MatchesAt(s, m)
  {
    ScanFinds(s, p);
    ScanIsGreedy(s, p);
    ScanMisses(s, p);
    ScanAt(s, p)
  }

  /** The leftmost match starting at or after `from`: the matcher tries each
      start in turn and moves on when the pattern fails there. */
  function FirstMatchFrom(s: string, from: nat): (r: Option<Span>)
    ensures r.Some? ==> from <= r.value.key && MatchesAt(s, r.value)
    ensures r.Some? ==> forall m :: MatchesAt(s, m) && from <= m.key ==>
              r.value.key < m.key ||
              (m.key == r.value.key && m.open == r.value.open && m.dot == r.value.dot && m.close <= r.value.close)
    ensures r.None? ==> forall m: Span :: from <= m.key ==> !MatchesAt(s, m)
    decreases |s| - from
  {
    if |s| < from + |Key| then None
    else
      match MatchAt(s, from)
      case Some(m) => Some(m)
      case None => FirstMatchFrom(s, from + 1)
  }

  /** The bundle identifier App.js signs with: group 2 of the first match,
      or `com.signer.app` when the profile text has no match at all. */
  function ExtractBundleId(s: string): (id: string)
    ensures (forall m :: !MatchesAt(s, m)) ==> id == DefaultBundleId
    ensures forall m :: IsFirstMatch(s, m) ==> id == s[m.dot + 1 .. m.close]
    ensures id == DefaultBundleId || (0 < |id| && forall k :: 0 <= k < |id| ==> !IsLineTerminator(id[k]))
  {
    match FirstMatchFrom(s, 0)
    case None => DefaultBundleId
    case Some(m) =>
      var group := s[m.dot + 1 .. m.close];
      FoundIsFirstMatch(s, m);
      CaptureOnOneLine(s, m, group);
      group
  }

  lemma FoundIsFirstMatch(s: string, m: Span)
    requires FirstMatchFrom(s, 0) == Some(m)
    ensures MatchesAt(s, m)
    ensures forall f :: IsFirstMatch(s, f) ==> s[m.dot + 1 .. m.close] == s[f.dot + 1 .. f.close]
  {
    forall f | IsFirstMatch(s, f)
      ensures f == m
    {
      assert MatchesAt(s, m);
    }
  }

  lemma CaptureOnOneLine(s: string, m: Span, g: string)
    requires MatchesAt(s, m) && g == s[m.dot + 1 .. m.close]
    ensures 0 < |g|
    ensures forall k :: 0 <= k < |g| ==> !IsLineTerminator(g[k])
  {
    forall k | 0 <= k < |g|
      ensures !IsLineTerminator(g[k])
    {
      assert g[k] == s[m.dot + 1 + k];
    }
  }

  /** Whenever the pattern matches somewhere, a first match exists, so the
      two cases of `ExtractBundleId`'s contract cover every text. */
  lemma FirstMatchExists(s: string, m: Span)
    requires MatchesAt(s, m)
    ensures exists f :: IsFirstMatch(s, f)
  {
    var f := FirstMatchFrom(s, 0).value;
    assert IsFirstMatch(s, f);
  }

  /** The reported match is unique. */
  lemma FirstMatchUnique(s: string, m1: Span, m2: Span)
    requires IsFirstMatch(s, m1) && IsFirstMatch(s, m2)
    ensures m1 == m2
  {
  }

  lemma Piece(s: string, x: string, t: string)
    requires x + t <= s
    ensures OccursAt(s, t, |x|)
    ensures forall k :: |x| <= k < |x| + |t| ==> s[k] == t[k - |x|]
  {
    assert s[..|x| + |t|] == x + t;
    assert s[|x|..|x| + |t|] == (x + t)[|x|..];
  }

  lemma PrefixOfPrefix(a: string, b: string, c: string)
    requires a <= b && b <= c
    ensures a <= c
  {
    assert c[..|a|] == c[..|b|][..|a|];
  }

  /** A match whose `</string>` is followed by the end of its line is the
      first match, once no earlier start completes the pattern. */
  lemma {:induction false} EndOfLineMatchIsFirst(s: string, m: Span)
    requires MatchesAt(s, m)
    requires m.close + |Close| == |s| || IsLineTerminator(s[m.close + |Close|])
    requires forall m' :: MatchesAt(s, m') ==> m.key <= m'.key
    ensures IsFirstMatch(s, m)
  {
    var f := FirstMatchFrom(s, 0).value;
    ClosesApart(s, m.close, f.close);
  }

  /** Where the pieces of `pre + Key + ws + Open + team + "." + rest + Close + post` lie. */
  lemma EntrySpan(s: string, pre: string, ws: string, team: string, rest: string, post: string) returns (m: Span)
    requires s == pre + Key + ws + Open + team + "." + rest + Close + post
    requires forall k :: 0 <= k < |ws| ==> IsWhitespace(ws[k])
    requires 0 < |team| && forall k :: 0 <= k < |team| ==> team[k] != '.'
    requires 0 < |rest| && forall k :: 0 <= k < |rest| ==> !IsLineTerminator(rest[k])
    ensures MatchesAt(s, m) && m.key == |pre| && s[m.dot + 1 .. m.close] == rest
    ensures m.close + |Close| + |post| == |s|
    ensures post != [] ==> s[m.close + |Close|] == post[0]
  {
    var p1 := pre + Key;
    var p2 := p1 + ws;
    var p3 := p2 + Open;
    var p4 := p3 + team;
    var p5 := p4 + ".";
    var p6 := p5 + rest;
    var p7 := p6 + Close;
    assert s == p7 + post;
    PrefixOfPrefix(p6, p7, s);
    PrefixOfPrefix(p5, p6, s);
    PrefixOfPrefix(p4, p5, s);
    PrefixOfPrefix(p3, p4, s);
    PrefixOfPrefix(p2, p3, s);
    PrefixOfPrefix(p1, p2, s);
    Piece(s, pre, Key);
    Piece(s, p1, ws);
    Piece(s, p2, Open);
    Piece(s, p3, team);
    Piece(s, p4, ".");
    Piece(s, p5, rest);
    Piece(s, p6, Close);
    m := Span(|pre|, |p2|, |p4|, |p6|);
    assert s[m.dot + 1 .. m.close] == rest;
    assert post != [] ==> s[|p7|] == post[0];
  }

  /** The profile entry `application-identifier</key>`, white space, then
      `<string>TEAM.rest</string>` ending its line yields `rest`, as long as
      no earlier occurrence of the key completes the pattern: a team prefix
      without dots is stripped, and the dots inside `rest` are kept. */
  lemma {:induction false} ExtractFromEntry(s: string, pre: string, ws: string, team: string, rest: string, post: string)
    requires s == pre + Key + ws + Open + team + "." + rest + Close + post
    requires forall k :: 0 <= k < |ws| ==> IsWhitespace(ws[k])
    requires 0 < |team| && forall k :: 0 <= k < |team| ==> team[k] != '.'
    requires 0 < |rest| && forall k :: 0 <= k < |rest| ==> !IsLineTerminator(rest[k])
    requires post == [] || IsLineTerminator(post[0])
    requires forall m :: MatchesAt(s, m) ==> |pre| <= m.key
    ensures ExtractBundleId(s) == rest
  {
    var m := EntrySpan(s, pre, ws, team, rest, post);
    EndOfLineMatchIsFirst(s, m);
  }

  /** A profile that never mentions the key signs with the fallback. */
  lemma NoKeyGivesDefault(s: string)
    requires forall p: nat :: !OccursAt(s, Key, p)
    ensures ExtractBundleId(s) == DefaultBundleId
  {
  }

  /** The entry for team `TEAM123` and bundle `com.example.myapp`, on a line
      of its own, yields `com.example.myapp`. */
  lemma ExampleProfile(profile: string)
    requires profile == Key + "\n\t" + Open + "TEAM123" + "." + "com.example.myapp" + Close + "\n"
    ensures ExtractBundleId(profile) == "com.example.myapp"
  {
    assert profile == "" + Key + "\n\t" + Open + "TEAM123" + "." + "com.example.myapp" + Close + "\n";
    ExtractFromEntry(profile, "", "\n\t", "TEAM123", "com.example.myapp", "\n");
  }
}

=== FILE: signer.dfy ===
/** The `signIPA` routine of App.js as a deterministic step machine.

    Every filesystem or native call is an abstract `Call` that the `World`
    either answers or rejects with an exception message. The routine's
    visible effects form a trace of `Event`s: the `signing` flag and the
    `progress` text it sets, the log lines it appends, the calls it issues
    and the alerts it shows. The try block is the fixed `Plan` of steps, run
    until the first one throws; the catch and finally blocks wrap it. */
module Signer {
  import opened Text
  import Uri
  import Provisioning
  import opened Bundle

  /** A file chosen through the document picker. */
  datatype PickedFile = PickedFile(uri: string, name: string)

  /** The component state `signIPA` reads: the three picked files (unset
      until chosen) and the certificate password. */
  datatype Request = Request(
    ipa: Option<PickedFile>,
    cert: Option<PickedFile>,
    profile: Option<PickedFile>,
    password: string)

  /** The input guard: all three files have been picked. */
  predicate Ready(req: Request) {
    req.ipa.Some? && req.cert.Some? && req.profile.Some?
  }

  /** The calls of the try block, in source order. */
  datatype Step =
    | MakeTempDir       // RNFS.mkdir(tempDir)
    | MakeExtractDir    // RNFS.mkdir(extractPath)
    | UnzipIpa          // RNFS.unzip(ipa path, extractPath)
    | ReadPayload       // RNFS.readDir(payloadPath), then the .app search
    | InstallProfile    // RNFS.copyFile(profile path, embedded.mobileprovision)
    | ReadProfile       // RNFS.readFile(embedded.mobileprovision, 'utf8')
    | NativeSign        // IPASignerModule.signApp(...)
    | MakeSignatureDir  // RNFS.mkdir(_CodeSignature), the fallback
    | CopyCertificate   // RNFS.copyFile(cert path, _CodeSignature/cert.p12), the fallback
    | ZipPayload        // RNFS.zip(Payload, signedIPAPath)
    | RemoveTempDir     // RNFS.unlink(tempDir)

  datatype Call =
    | Mkdir(path: string)
    | Unzip(source: string, target: string)
    | ReadDir(path: string)
    | CopyFile(source: string, target: string)
    | ReadFile(path: string)
    | SignApp(appPath: string, certPath: string, password: string, bundleId: string)
    | Zip(source: string, target: string)
    | Unlink(path: string)

  /** Everything the routine learns from outside itself. `rejects` gives the
      message a call throws, if it throws; `listing`, `contents` and
      `signResult` are what `readDir`, `readFile` and `signApp` resolve to;
      `nativeSigner` says whether `IPASignerModule.signApp` exists; the two
      stamps are the values `Date.now()` returns at App.js:94 and :171. */
  datatype World = World(
    documentDirectoryPath: string,
    tempStamp: nat,
    signedStamp: nat,
    nativeSigner: bool,
    rejects: Call -> Option<string>,
    listing: string -> seq<DirEntry>,
    contents: string -> string,
    signResult: string)

  datatype Alert = Alert(title: string, message: string)

  /** One visible effect. Log lines are kept without their time prefix. */
  datatype Event =
    | SetSigning(on: bool)
    | SetProgress(text: string)
    | Log(message: string)
    | Invoke(step: Step, call: Call)
    | Show(alert: Alert)

  /** The steps of the try block; the signing branch is fixed by whether the
      native module exists, which does not change during a run. */
  function Plan(native: bool): seq<Step> {
    [MakeTempDir, MakeExtractDir, UnzipIpa, ReadPayload, InstallProfile, ReadProfile]
    + (if native then [NativeSign] else [MakeSignatureDir, CopyCertificate])
    + [ZipPayload, RemoveTempDir]
  }

  // Paths, as the template literals of App.js build them.

  function TempDir(w: World): string {
    w.documentDirectoryPath + "/temp_" + DecimalString(w.tempStamp)
  }

  function ExtractDir(w: World): string {
    TempDir(w) + "/extracted"
  }

  function PayloadDir(w: World): string {
    ExtractDir(w) + "/Payload"
  }

  function SignedIpaPath(w: World): string {
    w.documentDirectoryPath + "/signed_" + DecimalString(w.signedStamp) + ".ipa"
  }

  function EmbeddedProfilePath(app: DirEntry): string {
    app.path + "/embedded.mobileprovision"
  }

  function InfoPlistPath(app: DirEntry): string {
    app.path + "/Info.plist"
  }

  function SignatureDir(app: DirEntry): string {
    app.path + "/_CodeSignature"
  }

  /** The bundle located in the listing of `Payload`, when there is one. */
  function Located(w: World): Result<DirEntry> {
    LocateAppBundle(w.listing(PayloadDir(w)))
  }

  /** The bundle the run goes on with once `readDir` has answered: the first
      `.app` entry of the listing. The steps that use it run only when there
      is one, so the empty entry for the other case is never consulted. */
  function AppDir(w: World): DirEntry {
    match Located(w)
    case Ok(app) => app
    case Err(_) => DirEntry("", "")
  }

  /** The bundle identifier read back from the installed profile. */
  function BundleId(w: World): string {
    Provisioning.ExtractBundleId(w.contents(EmbeddedProfilePath(AppDir(w))))
  }

  function CallOf(step: Step, req: Request, w: World): Call
    requires Ready(req)
  {
    match step
    case MakeTempDir => Mkdir(TempDir(w))
    case MakeExtractDir => Mkdir(ExtractDir(w))
    case UnzipIpa => Unzip(Uri.StripFileScheme(req.ipa.value.uri), ExtractDir(w))
    case ReadPayload => ReadDir(PayloadDir(w))
    case InstallProfile => CopyFile(Uri.StripFileScheme(req.profile.value.uri), EmbeddedProfilePath(AppDir(w)))
    case ReadProfile => ReadFile(EmbeddedProfilePath(AppDir(w)))
    case NativeSign => SignApp(AppDir(w).path, Uri.StripFileScheme(req.cert.value.uri), req.password, BundleId(w))
    case MakeSignatureDir => Mkdir(SignatureDir(AppDir(w)))
    case CopyCertificate => CopyFile(Uri.StripFileScheme(req.cert.value.uri), SignatureDir(AppDir(w)) + "/cert.p12")
    case ZipPayload => Zip(ExtractDir(w) + "/Payload", SignedIpaPath(w))
    case RemoveTempDir => Unlink(TempDir(w))
  }

  /** The message with which a step throws, if it does: the call's own
      rejection, or, once `readDir` has answered, the missing bundle. */
  function Failure(step: Step, req: Request, w: World): Option<string>
    requires Ready(req)
  {
    match w.rejects(CallOf(step, req, w))
    case Some(m) => Some(m)
    case None =>
      if step == ReadPayload && Located(w).Err? then Some(NoAppMessage)
      else None
  }

  function SuccessAlert(w: World): Alert {
    Alert("Success!", "IPA signed successfully!\n\nLocation: " + SignedIpaPath(w)
                      + "\n\nYou can now install this using AltStore or similar tools.")
  }

  /** The progress and log effects just before a step's call. */
  function Lead(step: Step, w: World): seq<Event> {
    match step
    case MakeTempDir => [SetProgress("Extracting IPA..."), Log("Extracting IPA archive...")]
    case MakeExtractDir => []
    case UnzipIpa => []
    case ReadPayload => [SetProgress("Locating app bundle...")]
    case InstallProfile => [SetProgress("Installing provisioning profile...")]
    case ReadProfile => [SetProgress("Preparing certificate..."), Log("Processing certificate...")]
    case NativeSign => [SetProgress("Signing app with certificate..."), Log("Calling native signing module...")]
    case MakeSignatureDir =>
      [SetProgress("Signing app with certificate..."), Log("Calling native signing module..."),
       Log("Using simplified certificate injection (no native module)")]
    case CopyCertificate => []
    case ZipPayload => [SetProgress("Repackaging IPA..."), Log("Creating signed IPA...")]
    case RemoveTempDir =>
      [SetProgress("Installation ready!"), Log("=== SIGNING COMPLETED ==="), Log("Signed IPA: " + SignedIpaPath(w))]
  }

  /** The effects after a step's call resolves, up to the next call. The
      "Update Info.plist" step of App.js:136-142 is the tail of
      `ReadProfile`'s: a progress text and a log line, and no call. */
  function Follow(step: Step, w: World): seq<Event> {
    match step
    case MakeTempDir => []
    case MakeExtractDir => []
    case UnzipIpa => [Log("IPA extracted successfully")]
    case ReadPayload => [Log("Found app bundle: " + AppDir(w).name)]
    case InstallProfile => [Log("Provisioning profile installed")]
    case ReadProfile =>
      [Log("Bundle ID: " + BundleId(w)), SetProgress("Updating app configuration..."),
       Log("Updated Info.plist with new bundle ID")]
    case NativeSign => [Log("Signing result: " + w.signResult)]
    case MakeSignatureDir => []
    case CopyCertificate => []
    case ZipPayload => [Log("Signed IPA created: " + SignedIpaPath(w))]
    case RemoveTempDir => [Show(SuccessAlert(w))]
  }

  datatype StepResult = Advanced(events: seq<Event>) | Threw(events: seq<Event>, message: string)

  function Perform(step: Step, req: Request, w: World): StepResult
    requires Ready(req)
  {
    var head := Lead(step, w) + [Invoke(step, CallOf(step, req, w))];
    match Failure(step, req, w)
    case Some(m) => Threw(head, m)
    case None => Advanced(head + Follow(step, w))
  }

  /** The try block's effects, and the message of the exception that ended
      it early, if one did. */
  datatype Attempt = Attempt(events: seq<Event>, thrown: Option<string>)

  // Observers of a trace.

  function Calls(t: seq<Event>): seq<Call> {
    if t == [] then [] else (if t[0].Invoke? then [t[0].call] else []) + Calls(t[1..])
  }

  function Steps(t: seq<Event>): seq<Step> {
    if t == [] then [] else (if t[0].Invoke? then [t[0].step] else []) + Steps(t[1..])
  }

  function Alerts(t: seq<Event>): seq<Alert> {
    if t == [] then [] else (if t[0].Show? then [t[0].alert] else []) + Alerts(t[1..])
  }

  const ErrorPrefix := "ERROR: "

  predicate IsErrorLog(e: Event) {
    e.Log? && StartsWith(e.message, ErrorPrefix)
  }

  /** The `ERROR: ...` lines among the logs. */
  function ErrorLogs(t: seq<Event>): seq<string> {
    if t == [] then [] else (if IsErrorLog(t[0]) then [t[0].message] else []) + ErrorLogs(t[1..])
  }

  lemma {:induction false} CallsAppend(a: seq<Event>, b: seq<Event>)
    ensures Calls(a + b) == Calls(a) + Calls(b)
  {
    if a == [] {
      assert a + b == b;
    } else {
      assert (a + b)[0] == a[0];
      assert (a + b)[1..] == a[1..] + b;
      CallsAppend(a[1..], b);
    }
  }

  lemma {:induction false} StepsAppend(a: seq<Event>, b: seq<Event>)
    ensures Steps(a + b) == Steps(a) + Steps(b)
  {
    if a == [] {
      assert a + b == b;
    } else {
      assert (a + b)[0] == a[0];
      assert (a + b)[1..] == a[1..] + b;
      StepsAppend(a[1..], b);
    }
  }

  lemma {:induction false} AlertsAppend(a: seq<Event>, b: seq<Event>)
    ensures Alerts(a + b) == Alerts(a) + Alerts(b)
  {
    if a == [] {
      assert a + b == b;
    } else {
      assert (a + b)[0] == a[0];
      assert (a + b)[1..] == a[1..] + b;
      AlertsAppend(a[1..], b);
    }
  }

  lemma {:induction false} ErrorLogsAppend(a: seq<Event>, b: seq<Event>)
    ensures ErrorLogs(a + b) == ErrorLogs(a) + ErrorLogs(b)
  {
    if a == [] {
      assert a + b == b;
    } else {
      var e := a[0];
      var head := if IsErrorLog(e) then [e.message] else [];
      assert (a + b)[0] == e;
      assert (a + b)[1..] == a[1..] + b;
      assert ErrorLogs(a + b) == head + ErrorLogs(a[1..] + b);
      ErrorLogsAppend(a[1..], b);
      assert ErrorLogs(a) == head + ErrorLogs(a[1..]);
    }
  }

  /** Every observer of a trace distributes over concatenation. */
  lemma ObserversAppend(a: seq<Event>, b: seq<Event>)
    ensures Calls(a + b) == Calls(a) + Calls(b)
    ensures Steps(a + b) == Steps(a) + Steps(b)
    ensures Alerts(a + b) == Alerts(a) + Alerts(b)
    ensures ErrorLogs(a + b) == ErrorLogs(a) + ErrorLogs(b)
  {
    CallsAppend(a, b);
    StepsAppend(a, b);
    AlertsAppend(a, b);
    ErrorLogsAppend(a, b);
  }

  /** State updates and ordinary log lines: no call, alert or error line. */
  predicate Quiet(e: Event) {
    e.SetSigning? || e.SetProgress? || (e.Log? && !IsErrorLog(e))
  }

  predicate Chatter(t: seq<Event>) {
    forall i :: 0 <= i < |t| ==> Quiet(t[i])
  }

  lemma Chatter2(a: Event, b: Event)
    requires Quiet(a) && Quiet(b)
    ensures Chatter([a, b])
  {
    forall i | 0 <= i < 2
      ensures Quiet([a, b][i])
    {
      if i == 0 { assert [a, b][i] == a; } else { assert [a, b][i] == b; }
    }
  }

  lemma Chatter3(a: Event, b: Event, c: Event)
    requires Quiet(a) && Quiet(b) && Quiet(c)
    ensures Chatter([a, b, c])
  {
    forall i | 0 <= i < 3
      ensures Quiet([a, b, c][i])
    {
      if i == 0 { assert [a, b, c][i] == a; }
      else if i == 1 { assert [a, b, c][i] == b; }
      else { assert [a, b, c][i] == c; }
    }
  }

  lemma ChatterIsSilent(t: seq<Event>)
    requires Chatter(t)
    ensures Calls(t) == [] && Steps(t) == [] && Alerts(t) == [] && ErrorLogs(t) == []
  {
    if t != [] {
      assert Chatter(t[1..]) by {
        forall i | 0 <= i < |t[1..]| ensures t[1..][i] == t[i + 1] {}
      }
      ChatterIsSilent(t[1..]);
    }
  }

  /** A line whose fixed opening does not start with `ER` is not an error
      line, whatever follows it. */
  lemma NotErrorLine(lead: string, rest: string)
    requires 1 < |lead| && (lead[0] != 'E' || lead[1] != 'R')
    ensures !IsErrorLog(Log(lead + rest))
  {
    assert (lead + rest)[..2] == lead[..2];
  }

  lemma LeadIsChatter(step: Step, w: World)
    ensures Chatter(Lead(step, w))
  {
    match step
    case MakeTempDir =>
      NotErrorLine("Extracting IPA archive...", "");
      Chatter2(SetProgress("Extracting IPA..."), Log("Extracting IPA archive..."));
    case MakeExtractDir =>
    case UnzipIpa =>
    case ReadPayload =>
    case InstallProfile =>
    case ReadProfile =>
      NotErrorLine("Processing certificate...", "");
      Chatter2(SetProgress("Preparing certificate..."), Log("Processing certificate..."));
    case NativeSign =>
      NotErrorLine("Calling native signing module...", "");
      Chatter2(SetProgress("Signing app with certificate..."), Log("Calling native signing module..."));
    case MakeSignatureDir =>
      InjectionLeadIsChatter(w);
    case CopyCertificate =>
    case ZipPayload =>
      NotErrorLine("Creating signed IPA...", "");
      Chatter2(SetProgress("Repackaging IPA..."), Log("Creating signed IPA..."));
    case RemoveTempDir =>
      NotErrorLine("=== SIGNING COMPLETED ===", "");
      NotErrorLine("Signed IPA: ", SignedIpaPath(w));
      Chatter3(SetProgress("Installation ready!"), Log("=== SIGNING COMPLETED ==="),
               Log("Signed IPA: " + SignedIpaPath(w)));
  }

  /** A line that opens with `lead`, which does not start with `ER`, is not
      an error line. */
  lemma OpensWith(line: string, lead: string)
    requires 1 < |lead| <= |line| && line[..|lead|] == lead && (lead[0] != 'E' || lead[1] != 'R')
    ensures !IsErrorLog(Log(line))
  {
    assert line[..2] == lead[..2];
  }

  /** The fallback's notice (App.js:158) is not an error line. Dafny does
      not spell out the characters of a literal this long, only its first
      forty. */
  lemma NoticeIsNotError()
    ensures !IsErrorLog(Log("Using simplified certificate injection (no native module)"))
  {
    OpensWith("Using simplified certificate injection (no native module)", "Using simplified certificate injection (");
  }

  /** The fallback's opening lines, kept apart from `LeadIsChatter`. */
  lemma InjectionLeadIsChatter(w: World)
    ensures Chatter(Lead(MakeSignatureDir, w))
  {
    NotErrorLine("Calling native signing module...", "");
    NoticeIsNotError();
    Chatter3(SetProgress("Signing app with certificate..."), Log("Calling native signing module..."),
             Log("Using simplified certificate injection (no native module)"));
  }

  lemma FollowIsChatter(step: Step, w: World)
    requires step != RemoveTempDir
    ensures Chatter(Follow(step, w))
  {
    match step
    case MakeTempDir =>
    case MakeExtractDir =>
    case UnzipIpa =>
      NotErrorLine("IPA extracted successfully", "");
    case ReadPayload =>
      NotErrorLine("Found app bundle: ", AppDir(w).name);
    case InstallProfile =>
      NotErrorLine("Provisioning profile installed", "");
    case ReadProfile =>
      ProfileFollowIsChatter(w);
    case NativeSign =>
      NotErrorLine("Signing result: ", w.signResult);
    case MakeSignatureDir =>
    case CopyCertificate =>
    case ZipPayload =>
      NotErrorLine("Signed IPA created: ", SignedIpaPath(w));
  }

  /** The lines after reading the profile name the bundle identifier,
      whatever it is, and are not error lines. */
  lemma ProfileFollowIsChatter(w: World)
    ensures Chatter(Follow(ReadProfile, w))
  {
    var id := BundleId(w);
    NotErrorLine("Bundle ID: ", id);
    NotErrorLine("Updated Info.plist with new bundle ID", "");
    var t := Follow(ReadProfile, w);
    forall i | 0 <= i < |t|
      ensures Quiet(t[i])
    {
      if i == 0 {
        assert t[0] == Log("Bundle ID: " + id);
      } else if i == 1 {
        assert t[1].SetProgress?;
      } else {
        assert t[2] == Log("Updated Info.plist with new bundle ID" + "");
      }
    }
  }

  /** One step issues its one call, and shows the success alert only when it
      is the final cleanup and that succeeds. */
  lemma PerformShape(step: Step, req: Request, w: World)
    requires Ready(req)
    ensures Steps(Perform(step, req, w).events) == [step]
    ensures Calls(Perform(step, req, w).events) == [CallOf(step, req, w)]
    ensures ErrorLogs(Perform(step, req, w).events) == []
    ensures Alerts(Perform(step, req, w).events) ==
              (if Perform(step, req, w).Advanced? && step == RemoveTempDir then [SuccessAlert(w)] else [])
    ensures Perform(step, req, w).Threw? <==> Failure(step, req, w).Some?
    ensures Perform(step, req, w).Threw? ==> Failure(step, req, w) == Some(Perform(step, req, w).message)
  {
    LeadIsChatter(step, w);
    FollowObservers(step, w);
    Assemble(Lead(step, w), step, CallOf(step, req, w), Follow(step, w));
  }

  /** What the effects after a step's call contribute to the observers:
      nothing but, for the removal step, the success alert. */
  lemma FollowObservers(step: Step, w: World)
    ensures Calls(Follow(step, w)) == [] && Steps(Follow(step, w)) == [] && ErrorLogs(Follow(step, w)) == []
    ensures Alerts(Follow(step, w)) == (if step == RemoveTempDir then [SuccessAlert(w)] else [])
  {
    if step != RemoveTempDir {
      FollowIsChatter(step, w);
      ChatterIsSilent(Follow(step, w));
    }
  }

  /** The observers of a step's events, from those of its pieces. */
  lemma Assemble(lead: seq<Event>, step: Step, c: Call, follow: seq<Event>)
    requires Chatter(lead)
    ensures var head := lead + [Invoke(step, c)];
            && Steps(head) == [step] && Calls(head) == [c] && ErrorLogs(head) == [] && Alerts(head) == []
            && Steps(head + follow) == [step] + Steps(follow)
            && Calls(head + follow) == [c] + Calls(follow)
            && ErrorLogs(head + follow) == ErrorLogs(follow)
            && Alerts(head + follow) == Alerts(follow)
  {
    var invoke := [Invoke(step, c)];
    ChatterIsSilent(lead);
    ObserversAppend(lead, invoke);
    ObserversAppend(lead + invoke, follow);
  }

  /** The calls a sequence of steps issues, one each, in order. */
  function CallsOf(steps: seq<Step>, req: Request, w: World): (calls: seq<Call>)
    requires Ready(req)
    ensures |calls| == |steps|
    ensures forall i :: 0 <= i < |steps| ==> calls[i] == CallOf(steps[i], req, w)
  {
    if steps == [] then [] else [CallOf(steps[0], req, w)] + CallsOf(steps[1..], req, w)
  }

  /** Every one of `steps` resolves. */
  predicate Resolved(steps: seq<Step>, req: Request, w: World)
    requires Ready(req)
  {
    forall i :: 0 <= i < |steps| ==> Failure(steps[i], req, w).None?
  }

  // The try block over the outcomes its steps would have, whatever they are.

  /** Run the outcomes in order, stopping at the first that threw. */
  function Run(rs: seq<StepResult>): Attempt {
    if rs == [] then Attempt([], None)
    else
      match rs[0]
      case Threw(events, m) => Attempt(events, Some(m))
      case Advanced(events) =>
        var rest := Run(rs[1..]);
        Attempt(events + rest.events, rest.thrown)
  }

  /** How many of the outcomes `Run` reaches: up to and including the first
      that threw, or all of them. */
  function Reached(rs: seq<StepResult>): (n: nat)
    ensures n <= |rs|
    ensures rs != [] ==> 0 < n
  {
    if rs == [] then 0 else if rs[0].Threw? then 1 else 1 + Reached(rs[1..])
  }

  function Flatten(rs: seq<StepResult>): seq<Event> {
    if rs == [] then [] else rs[0].events + Flatten(rs[1..])
  }

  predicate AllAdvanced(rs: seq<StepResult>) {
    forall i :: 0 <= i < |rs| ==> rs[i].Advanced?
  }

  /** `Run` emits the effects of exactly the outcomes it reaches; all but the
      last reached advanced; it finishes without an exception exactly when
      every outcome advanced, and otherwise passes on the message of the last
      outcome reached. */
  lemma {:induction false} RunReaches(rs: seq<StepResult>)
    ensures Run(rs).events == Flatten(rs[..Reached(rs)])
    ensures forall i :: 0 <= i < Reached(rs) - 1 ==> rs[i].Advanced?
    ensures Run(rs).thrown.None? <==> AllAdvanced(rs)
    ensures Run(rs).thrown.None? ==> Reached(rs) == |rs|
    ensures Run(rs).thrown.Some? ==>
              rs[Reached(rs) - 1].Threw? && Run(rs).thrown == Some(rs[Reached(rs) - 1].message)
  {
    if rs != [] {
      if rs[0].Threw? {
        assert rs[..1][1..] == [];
        assert !AllAdvanced(rs) by { assert !rs[0].Advanced?; }
      } else {
        var tail := rs[1..];
        RunReaches(tail);
        var n := Reached(tail);
        assert rs[..1 + n][1..] == tail[..n];
        assert forall i :: 0 < i < |rs| ==> rs[i] == tail[i - 1];
        assert AllAdvanced(rs) <==> AllAdvanced(tail);
      }
    }
  }

  /** When each outcome performs one step with one call, the outcomes
      together perform those steps and calls in order. */
  lemma {:induction false} FlattenStepsAndCalls(rs: seq<StepResult>, steps: seq<Step>, calls: seq<Call>)
    requires |rs| == |steps| == |calls|
    requires forall i :: 0 <= i < |rs| ==> Steps(rs[i].events) == [steps[i]]
    requires forall i :: 0 <= i < |rs| ==> Calls(rs[i].events) == [calls[i]]
    ensures Steps(Flatten(rs)) == steps
    ensures Calls(Flatten(rs)) == calls
  {
    if rs != [] {
      FlattenStepsAndCalls(rs[1..], steps[1..], calls[1..]);
      ObserversAppend(rs[0].events, Flatten(rs[1..]));
      assert steps == [steps[0]] + steps[1..];
      assert calls == [calls[0]] + calls[1..];
    }
  }

  /** When no outcome logs an error line, neither do they together. */
  lemma {:induction false} FlattenNoErrors(rs: seq<StepResult>)
    requires forall i :: 0 <= i < |rs| ==> ErrorLogs(rs[i].events) == []
    ensures ErrorLogs(Flatten(rs)) == []
  {
    if rs != [] {
      FlattenNoErrors(rs[1..]);
      ObserversAppend(rs[0].events, Flatten(rs[1..]));
    }
  }

  /** When only the last outcome may show an alert, the outcomes together
      show that alert only. */
  lemma {:induction false} FlattenLastAlert(rs: seq<StepResult>)
    requires forall i :: 0 <= i < |rs| - 1 ==> Alerts(rs[i].events) == []
    ensures Alerts(Flatten(rs)) == if rs == [] then [] else Alerts(rs[|rs| - 1].events)
  {
    if rs != [] {
      FlattenLastAlert(rs[1..]);
      ObserversAppend(rs[0].events, Flatten(rs[1..]));
      if |rs| > 1 {
        assert rs[1..][|rs[1..]| - 1] == rs[|rs| - 1];
      }
    }
  }

  // The try block of `signIPA`.

  /** What each step of `plan` would do if it were reached. */
  function Outcomes(plan: seq<Step>, req: Request, w: World): (rs: seq<StepResult>)
    requires Ready(req)
    ensures |rs| == |plan|
  {
    if plan == [] then [] else [Perform(plan[0], req, w)] + Outcomes(plan[1..], req, w)
  }

  lemma {:induction false} OutcomeAt(plan: seq<Step>, req: Request, w: World, i: nat)
    requires Ready(req) && i < |plan|
    ensures Outcomes(plan, req, w)[i] == Perform(plan[i], req, w)
  {
    if i > 0 {
      OutcomeAt(plan[1..], req, w, i - 1);
    }
  }

  /** The try block: the steps of `plan` in order, stopping at the first
      that throws. */
  function RunPlan(plan: seq<Step>, req: Request, w: World): Attempt
    requires Ready(req)
  {
    Run(Outcomes(plan, req, w))
  }

  /** `rs` holds, position by position, the outcomes of `plan`'s steps:
      each performs its step and issues its call, advances exactly when the
      step resolves and otherwise carries the step's message. */
  ghost predicate Mirrors(rs: seq<StepResult>, plan: seq<Step>, req: Request, w: World)
    requires Ready(req)
  {
    && |rs| == |plan|
    && (forall i :: 0 <= i < |plan| ==>
          Steps(rs[i].events) == [plan[i]] && Calls(rs[i].events) == [CallOf(plan[i], req, w)])
    && (forall i :: 0 <= i < |plan| ==>
          && (rs[i].Advanced? <==> Failure(plan[i], req, w).None?)
          && (rs[i].Threw? ==> Failure(plan[i], req, w) == Some(rs[i].message)))
  }

  lemma OutcomesMirror(plan: seq<Step>, req: Request, w: World)
    requires Ready(req)
    ensures Mirrors(Outcomes(plan, req, w), plan, req, w)
  {
    var rs := Outcomes(plan, req, w);
    forall i | 0 <= i < |plan|
      ensures Steps(rs[i].events) == [plan[i]] && Calls(rs[i].events) == [CallOf(plan[i], req, w)]
      ensures rs[i].Advanced? <==> Failure(plan[i], req, w).None?
      ensures rs[i].Threw? ==> Failure(plan[i], req, w) == Some(rs[i].message)
    {
      OutcomeAt(plan, req, w, i);
      PerformShape(plan[i], req, w);
    }
  }

  /** No outcome logs an error, and only a completed removal alerts. */
  lemma OutcomesQuiet(plan: seq<Step>, req: Request, w: World)
    requires Ready(req)
    ensures var rs := Outcomes(plan, req, w);
            forall i :: 0 <= i < |plan| ==>
              && ErrorLogs(rs[i].events) == []
              && Alerts(rs[i].events) ==
                   (if rs[i].Advanced? && plan[i] == RemoveTempDir then [SuccessAlert(w)] else [])
  {
    var rs := Outcomes(plan, req, w);
    forall i | 0 <= i < |plan|
      ensures ErrorLogs(rs[i].events) == []
      ensures Alerts(rs[i].events) ==
                (if rs[i].Advanced? && plan[i] == RemoveTempDir then [SuccessAlert(w)] else [])
    {
      OutcomeAt(plan, req, w, i);
      PerformShape(plan[i], req, w);
    }
  }

  /** The steps a try block performs are the plan's up to the one it
      stopped at, and its calls theirs. */
  lemma StepsReached(rs: seq<StepResult>, plan: seq<Step>, req: Request, w: World)
    requires Ready(req) && Mirrors(rs, plan, req, w)
    ensures Reached(rs) <= |plan|
    ensures Steps(Run(rs).events) == plan[..Reached(rs)]
    ensures Calls(Run(rs).events) == CallsOf(plan[..Reached(rs)], req, w)
  {
    var n := Reached(rs);
    RunReaches(rs);
    FlattenStepsAndCalls(rs[..n], plan[..n], CallsOf(plan[..n], req, w));
  }

  /** The step a try block stopped at failed with the thrown message,
      after every earlier one resolved. */
  lemma StatusReached(rs: seq<StepResult>, plan: seq<Step>, req: Request, w: World)
    requires Ready(req) && Mirrors(rs, plan, req, w)
    ensures Run(rs).thrown.Some? ==>
              && 0 < Reached(rs) <= |plan|
              && Resolved(plan[..Reached(rs) - 1], req, w)
              && Failure(plan[Reached(rs) - 1], req, w) == Run(rs).thrown
  {
    var n := Reached(rs);
    RunReaches(rs);
    if Run(rs).thrown.Some? {
      assert Resolved(plan[..n - 1], req, w) by {
        assert forall i :: 0 <= i < n - 1 ==> rs[i].Advanced?;
      }
    }
  }

  lemma TrySteps(rs: seq<StepResult>, plan: seq<Step>, req: Request, w: World)
    requires Ready(req) && Mirrors(rs, plan, req, w)
    ensures var st := Steps(Run(rs).events);
            && st <= plan
            && (plan != [] ==> st != [])
            && Calls(Run(rs).events) == CallsOf(st, req, w)
  {
    StepsReached(rs, plan, req, w);
  }

  lemma TryCompletes(rs: seq<StepResult>, plan: seq<Step>, req: Request, w: World)
    requires Ready(req) && Mirrors(rs, plan, req, w)
    ensures Run(rs).thrown.None? <==> Resolved(plan, req, w)
    ensures Run(rs).thrown.None? ==> Steps(Run(rs).events) == plan
  {
    RunReaches(rs);
    if Run(rs).thrown.None? {
      StepsReached(rs, plan, req, w);
      assert plan[..|plan|] == plan;
    }
  }

  lemma TryStops(rs: seq<StepResult>, plan: seq<Step>, req: Request, w: World)
    requires Ready(req) && Mirrors(rs, plan, req, w)
    ensures var st := Steps(Run(rs).events);
            Run(rs).thrown.Some? ==> 0 < |st| && Resolved(st[..|st| - 1], req, w)
                                     && Failure(st[|st| - 1], req, w) == Run(rs).thrown
  {
    StepsReached(rs, plan, req, w);
    StatusReached(rs, plan, req, w);
    var n := Reached(rs);
    if Run(rs).thrown.Some? {
      assert plan[..n][..n - 1] == plan[..n - 1];
    }
  }

  /** A run of `plan` performs a prefix of it, at least its first step,
      issuing each step's call in order, and logs no error line itself. */
  lemma RunPlanSteps(plan: seq<Step>, req: Request, w: World)
    requires Ready(req)
    ensures var a := RunPlan(plan, req, w);
            && Steps(a.events) <= plan
            && (plan != [] ==> Steps(a.events) != [])
            && Calls(a.events) == CallsOf(Steps(a.events), req, w)
            && ErrorLogs(a.events) == []
  {
    var rs := Outcomes(plan, req, w);
    OutcomesMirror(plan, req, w);
    TrySteps(rs, plan, req, w);
    RunReaches(rs);
    OutcomesQuiet(plan, req, w);
    FlattenNoErrors(rs[..Reached(rs)]);
  }

  /** A run of `plan` completes exactly when every step resolves, and then
      it has performed the whole plan. */
  lemma RunPlanCompletes(plan: seq<Step>, req: Request, w: World)
    requires Ready(req)
    ensures var a := RunPlan(plan, req, w);
            a.thrown.None? <==> Resolved(plan, req, w)
    ensures var a := RunPlan(plan, req, w);
            a.thrown.None? ==> Steps(a.events) == plan
  {
    OutcomesMirror(plan, req, w);
    TryCompletes(Outcomes(plan, req, w), plan, req, w);
  }

  /** A run of `plan` that throws stops at a step whose failure is the
      thrown message, after every earlier step resolved. */
  lemma RunPlanStops(plan: seq<Step>, req: Request, w: World)
    requires Ready(req)
    ensures var a := RunPlan(plan, req, w); var st := Steps(a.events);
            a.thrown.Some? ==> 0 < |st| && Resolved(st[..|st| - 1], req, w)
                               && Failure(st[|st| - 1], req, w) == a.thrown
  {
    OutcomesMirror(plan, req, w);
    TryStops(Outcomes(plan, req, w), plan, req, w);
  }

  /** The success alert is shown once, and only when the plan ends with the
      cleanup step and every step resolved. */
  lemma RunPlanAlerts(plan: seq<Step>, req: Request, w: World)
    requires Ready(req)
    requires forall i :: 0 <= i < |plan| - 1 ==> plan[i] != RemoveTempDir
    ensures var a := RunPlan(plan, req, w);
            Alerts(a.events) ==
              (if a.thrown.None? && plan != [] && plan[|plan| - 1] == RemoveTempDir then [SuccessAlert(w)] else [])
  {
    var rs := Outcomes(plan, req, w);
    var n := Reached(rs);
    RunReaches(rs);
    OutcomesQuiet(plan, req, w);
    FlattenLastAlert(rs[..n]);
  }

  const Opening := [SetSigning(true), SetProgress("Starting signing process..."), Log("=== SIGNING STARTED ===")]
  const Closing := [SetSigning(false), SetProgress("")]
  const MissingFilesAlert := Alert("Error", "Please select all required files")

  /** The catch block. */
  function Handler(thrown: Option<string>): seq<Event> {
    match thrown
    case None => []
    case Some(m) => [Log(ErrorPrefix + m), Show(Alert("Signing Failed", m))]
  }

  /** `signIPA`: the guard, then the try block, its catch and its finally. */
  function SignIpa(req: Request, w: World): seq<Event> {
    if !Ready(req) then [Show(MissingFilesAlert)]
    else
      var a := RunPlan(Plan(w.nativeSigner), req, w);
      Opening + a.events + Handler(a.thrown) + Closing
  }

  /** The component state a trace leaves behind. */
  datatype Ui = Ui(signing: bool, progress: string, logs: seq<string>)

  function Apply(ui: Ui, t: seq<Event>): Ui
    decreases |t|
  {
    if t == [] then ui
    else
      var next := match t[0]
        case SetSigning(on) => ui.(signing := on)
        case SetProgress(text) => ui.(progress := text)
        case Log(m) => ui.(logs := ui.logs + [m])
        case _ => ui;
      Apply(next, t[1..])
  }
}

=== FILE: text.dfy ===
/** String helpers shared by the re-signing model: the JavaScript character
    classes the bundle-id pattern uses, substring occurrence, suffix tests and
    the decimal rendering of a timestamp. Strings are sequences of characters;
    a JavaScript string decoded from UTF-8 is taken character by character. */
module Text {

  datatype Option<+T> = None | Some(value: T)

  /** A value or the message of the exception that replaced it. */
  datatype Result<+T> = Ok(value: T) | Err(message: string)

  /** ECMAScript LineTerminator: the characters `.` does not match. */
  predicate IsLineTerminator(c: char) {
    c == '\n' || c == '\r' || c == '\U{2028}' || c == '\U{2029}'
  }

  /** ECMAScript WhiteSpace or LineTerminator: the characters `\s` matches. */
  predicate IsWhitespace(c: char) {
    || c == '\t' || c == '\n' || c == '\U{000B}' || c == '\U{000C}' || c == '\r'
    || c == ' ' || c == '\U{00A0}' || c == '\U{1680}'
    || ('\U{2000}' <= c <= '\U{200A}')
    || c == '\U{2028}' || c == '\U{2029}' || c == '\U{202F}' || c == '\U{205F}'
    || c == '\U{3000}' || c == '\U{FEFF}'
  }

  /** `pat` occurs in `s` starting at index `k`. */
  predicate OccursAt(s: string, pat: string, k: nat) {
    k + |pat| <= |s| && s[k..k + |pat|] == pat
  }

  lemma OccursAtHead(s: string, pat: string, k: nat)
    requires OccursAt(s, pat, k) && 0 < |pat|
    ensures s[k] == pat[0]
  {
    assert s[k..k + |pat|][0] == s[k];
  }

  predicate StartsWith(s: string, prefix: string) {
    |prefix| <= |s| && s[..|prefix|] == prefix
  }

  predicate EndsWith(s: string, suffix: string) {
    |suffix| <= |s| && s[|s| - |suffix|..] == suffix
  }

  /** `k` is the leftmost occurrence of `pat` in `s`. */
  ghost predicate IsFirstOccurrence(s: string, pat: string, k: nat) {
    OccursAt(s, pat, k) && forall j :: 0 <= j < k ==> !OccursAt(s, pat, j)
  }

  /** The leftmost occurrence of `pat` in `s` at or after `from`, if any. */
  function FindFrom(s: string, pat: string, from: nat): (r: Option<nat>)
    ensures r.Some? ==> from <= r.value && OccursAt(s, pat, r.value)
    ensures r.Some? ==> forall j :: from <= j < r.value ==> !OccursAt(s, pat, j)
    ensures r.None? ==> forall j :: from <= j ==> !OccursAt(s, pat, j)
    decreases |s| - from
  {
    if |s| < from + |pat| then None
    else if OccursAt(s, pat, from) then Some(from)
    else FindFrom(s, pat, from + 1)
  }

  predicate IsDigit(c: char) {
    '0' <= c <= '9'
  }

  function DigitChar(d: nat): (c: char)
    requires d < 10
    ensures IsDigit(c)
  {
    "0123456789"[d]
  }

  /** The decimal rendering of `n`, as a template literal prints a
      non-negative integer such as the value of `Date.now()`. */
  function DecimalString(n: nat): (r: string)
    ensures 0 < |r|
    ensures forall k :: 0 <= k < |r| ==> IsDigit(r[k])
    ensures n < 10 <==> |r| == 1
  {
    if n < 10 then [DigitChar(n)] else DecimalString(n / 10) + [DigitChar(n % 10)]
  }

  /** Reading a decimal string back, the partner of `DecimalString`. */
  function DecimalValue(s: string): nat
    requires forall k :: 0 <= k < |s| ==> IsDigit(s[k])
  {
    if s == [] then 0
    else
      assert IsDigit(s[|s| - 1]);
      DecimalValue(s[..|s| - 1]) * 10 + (s[|s| - 1] as int - '0' as int)
  }

  lemma {:induction false} DecimalRoundTrip(n: nat)
    ensures DecimalValue(DecimalString(n)) == n
  {
    if n >= 10 {
      var r := DecimalString(n);
      assert r[..|r| - 1] == DecimalString(n / 10);
      DecimalRoundTrip(n / 10);
      assert "0123456789"[n % 10] as int - '0' as int == n % 10;
    } else {
      assert "0123456789"[n] as int - '0' as int == n;
    }
  }
}

=== FILE: uri.dfy ===
/** Turning a picked file's URI into a filesystem path. App.js does this with
    `uri.replace('file://', '')`, which, with a string pattern, removes only
    the leftmost occurrence of `file://` wherever it stands in the URI. */
module Uri {
  import opened Text

  const FileScheme := "file://"

  function StripFileScheme(uri: string): (path: string)
    ensures (forall k: nat :: !OccursAt(uri, FileScheme, k)) ==> path == uri
    ensures forall k: nat :: IsFirstOccurrence(uri, FileScheme, k) ==>
              path == uri[..k] + uri[k + |FileScheme|..]
  {
    match FindFrom(uri, FileScheme, 0)
    case None => uri
    case Some(k) => uri[..k] + uri[k + |FileScheme|..]
  }

  /** Stripping loses nothing but the one removed occurrence: putting
      `file://` back where it was restores the URI. */
  lemma {:induction false} StripThenRestore(uri: string, k: nat)
    requires IsFirstOccurrence(uri, FileScheme, k)
    ensures |StripFileScheme(uri)| == |uri| - |FileScheme|
    ensures StripFileScheme(uri)[..k] + FileScheme + StripFileScheme(uri)[k..] == uri
  {
    var path := StripFileScheme(uri);
    assert path == uri[..k] + uri[k + |FileScheme|..];
    assert path[..k] == uri[..k];
    assert path[k..] == uri[k + |FileScheme|..];
    assert uri[k..k + |FileScheme|] == FileScheme;
    assert uri == uri[..k] + uri[k..k + |FileScheme|] + uri[k + |FileScheme|..];
  }

  /** The usual case: a `file://` URI becomes the absolute path after it. */
  lemma {:induction false} StripLeadingScheme(path: string)
    ensures StripFileScheme(FileScheme + path) == path
  {
    var uri := FileScheme + path;
    assert OccursAt(uri, FileScheme, 0);
    assert IsFirstOccurrence(uri, FileScheme, 0);
  }

  /** The scheme is removed where it first appears even when it is not a
      prefix. */
  lemma StripIsNotPrefixOnly()
    ensures StripFileScheme("content://a/file://b") == "content://a/b"
  {
    var u := "content://a/file://b";
    assert OccursAt(u, FileScheme, 12);
    forall j: nat | j < 12
      ensures !OccursAt(u, FileScheme, j)
    {
      if OccursAt(u, FileScheme, j) {
        OccursAtHead(u, FileScheme, j);
      }
    }
    assert IsFirstOccurrence(u, FileScheme, 12);
  }

  /** Only one occurrence is removed; a second one is kept. */
  lemma StripRemovesOne()
    ensures StripFileScheme("file://file://x") == "file://x"
  {
    var v := "file://file://x";
    assert v[..7] == FileScheme;
    assert IsFirstOccurrence(v, FileScheme, 0);
    assert v[7..] == "file://x";
  }
}
